=== FILE: README.md ===
# WellCat container decoding and record recovery, in Dafny

This project models the reverse-engineering scripts for WellCat design files. The three scripts modelled are:

- `analyser.py` (`analyze_edm_file`) takes the file's bytes through four steps:
  - It sniffs for base64 and decodes it, falling back to the original bytes.
  - It probes zlib with a fixed sequence of window-bits settings.
  - It checks the compound-file (CFBF) magic.
  - It either reports each stream of the OLE container or falls back to raw-binary diagnostics. The stream report covers a hex dump, a text test and an exported file name. The raw diagnostics cover a signature table, a hex dump and a text test.
- `wellcat_analyzer.py` (`reverse_engineer_wellcat_format`) makes three passes:
  - It scans for text strings.
  - It counts 16-byte chunks and reports the top 20 that repeat.
  - It lays the bytes out on a 512-wide pixel grid.
- `wellcat_parser.py` (`parse_wellcat_data`) does two things:
  - It reads the version and the design number and well name from two regular expressions.
  - It slices 32-byte records from offset 200 into inventory items. The grade field is ASCII-decoded with NULs stripped, and a record whose grade does not decode is skipped.

Each script is modelled as pure functions and short methods over `seq<byte>`:

- Library calls become function-valued parameters ("oracles") that either produce bytes or fail:
  - `base64.b64decode`;
  - `zlib.decompress` for each `wbits` setting;
  - `olefile`'s listing of streams with their contents.
- File I/O, printing and plotting are not modelled. Each operation returns what it would print or save instead.

Module layout:

| module | contents |
|---|---|
| `Wrappers` | `Option` |
| `ByteClasses` | byte classes, `Take`, ASCII decoding |
| `Decimal` | `str(n)` and `int(s)` |
| `Decoder` | base64 sniff and unwrap, decompression order |
| `Signatures` | the file-signature table |
| `Preview` | hex-dump rows, their rendering, and the text test |
| `StreamNames` | export-name sanitiser |
| `Analyser` | CFBF check, stream reports, container branch, the whole of `analyze_edm_file` |
| `StringScan` | text strings |
| `ChunkPatterns` | 16-byte chunk counter and `most_common(20)` |
| `PixelGrid` | visualisation grid |
| `Header` | the two regular-expression searches |
| `Records` | 32-byte record slicing and `strip('\x00')` |
| `Parser` | `parse_wellcat_data` |

Some properties of the source that the proofs make explicit:

- The `wbits=15` retry is redundant when the library treats it like the default call (`Decoder.FifteenRetryIsRedundant`).
- The UTF-16 branch for stream samples is unreachable, because the text test rejects the byte-order mark's 0xFF (`Preview.TextSampleIsNeverUtf16`).
- The signature dictionary literal lists the ZIP magic twice, so it holds 15 entries.
- The OOXML entry can never be reported, because the ZIP entry's magic is a prefix of its own (`Signatures.OoxmlIsNeverReported`).
- Stream exports can collide on one name (`StreamNames.ExportNamesCollide`).
- The "first 100 bytes" dump of a stream shows 112 bytes, because it prints whole rows (`Preview.StreamDumpShowsSevenRows`).
- The chunk loop `range(0, len(data) - 16, 16)` never counts a final chunk that ends exactly at the end of the data (`ChunkPatterns.FinalFullChunkSkipped`). It is modelled as written. Whether this is intended cannot be told from the code.
- When the length is a multiple of 512, the image has an empty last row (`PixelGrid.ExactMultipleLeavesEmptyRow`).

## Model

| member | source | states |
|---|---|---|
| `Decoder.LooksBase64` | analyser.py:22 | The sniff: the data starts with `eNr`, or every byte among the first 100 is in the base64 alphabet or `=`. |
| `Decoder.Unwrap` | analyser.py:22-43 | The decoded bytes are used only when the sniff passes and `b64decode` succeeds. Otherwise the original bytes are used. |
| `Decoder.UnwrapNeverLoses` | analyser.py:24-40 | A base64 failure is never fatal: the payload is the input or the decoder's output. |
| `Decoder.EncoderOutputLooksBase64` | analyser.py:22 | Any data made only of base64 alphabet bytes passes the sniff. |
| `Decoder.ForeignByteDefeatsSniff` | analyser.py:22 | A non-alphabet byte among the first 100 makes the sniff depend on the `eNr` prefix alone. |
| `Decoder.SniffReadsOnlyTheHeader` | analyser.py:22 | Bytes after the first 100 never change the sniff. |
| `Decoder.EmptyLooksBase64` | analyser.py:22 | The empty file passes the sniff, since `all` of nothing is true. |
| `Decoder.FirstSuccess` | analyser.py:55-62 | The result fails iff every attempt fails. Otherwise it is the output of the first attempt that succeeds, and every attempt before it failed. |
| `Decoder.Decompress` | analyser.py:45-66 | Decompression fails iff the default call and all three retries fail. A result is some attempt's output. |
| `Decoder.DecompressOrder` | analyser.py:46-62 | The result comes from the first success in the order default, 15, 31, -15. |
| `Decoder.FifteenRetryIsRedundant` | analyser.py:47-57 | If `wbits=15` answers like the default call, dropping that retry changes no result. |
| `Analyser.HasCfbfSignature` | analyser.py:75 | The magic test: `data[:8]` equals the compound-file magic. |
| `Analyser.CfbfSignatureIff` | analyser.py:75 | The magic test holds iff there are at least 8 bytes and bytes 0..7 equal `D0 CF 11 E0 A1 B1 1A E1`. |
| `Analyser.CfbfSignatureAgreesWithTable` | analyser.py:211 | The magic test of line 75 holds iff the signature table reports its OLE entry. |
| `Analyser.ReportStream` | analyser.py:131-181 | A stream is reported iff it can be read. Its report carries its position and true size, and `min(size, 10000)` bytes exported from its start. The export name is the sanitised name of its path and position. The dump rows and the text flag are those of the exported bytes. |
| `Analyser.Readable` | analyser.py:123-138 | Lists only positions of readable streams, in strictly increasing order. |
| `Analyser.ReadableIsComplete` | analyser.py:123-138 | Every readable position is listed. |
| `Analyser.ReportStreams` | analyser.py:123-184 | Gives one report per readable stream, in listing order, each equal to that stream's own report. |
| `Analyser.ReadableStreamsAreReported` | analyser.py:123-184 | A stream's position appears among the reports iff the stream can be read. |
| `Analyser.RawAnalysis` | analyser.py:194-239 | The raw diagnostics give the data's size and the type of the first table entry whose magic starts the data, or none iff no magic does. They also give the rows of a dump of the first 256 bytes and the text test's verdict. |
| `Analyser.ContainerAsWritten` | analyser.py:84-192 | As written: the raw fallback runs iff opening fails or no stream is readable, and then it analyses the decompressed bytes. |
| `Analyser.EmptyContainerFallsBackToRaw` | analyser.py:186-192 | As written, a container that lists no streams is treated as not a compound file. |
| `Analyser.Container` | analyser.py:84-190 | Corrected: the raw fallback runs iff opening fails. Otherwise the outcome is exactly the stream reports. |
| `Analyser.ContainerAgreesWhenAStreamIsRead` | analyser.py:162-187 | When some stream is readable, the as-written and corrected branches agree and there is no fallback. |
| `Analyser.AnalyseEdm` | analyser.py:11-239 | The whole pipeline as written: the sniff result, the unwrapped payload and the decompressed bytes are as above. It stops iff every decompression fails. The CFBF flag comes from the decompressed bytes, and the container outcome is the as-written branch, so an openable container with no readable stream still gets the raw fallback. |
| `Analyser.AnalyseEdmCorrected` | analyser.py:11-239 | The same pipeline with the corrected container branch, where only a failure to open falls back. |
| `Analyser.MagicDoesNotGateOpening` | analyser.py:75-85 | A missing magic is only a warning: an openable container has its readable streams reported. The raw fallback runs iff none of its streams is readable. |
| `Signatures.FirstMatchFrom` | analyser.py:218-223 | Finds the first table entry at or after `i` whose magic prefixes the data, or reports that none does. |
| `Signatures.DetectFileType` | analyser.py:218-223 | The printed type is that of the first entry whose magic starts the data, and there is none iff no magic does. |
| `Signatures.DetectEntry` | analyser.py:218-223 | The reported entry's magic prefixes the data and no earlier entry's does. Nothing is reported iff no magic matches. |
| `Signatures.DetectedAt` | analyser.py:218-221 | An entry that matches with no earlier match is the one reported. |
| `Signatures.OoxmlTypeOnlyAtEleven` | analyser.py:199-216 | Only entry 11 of the 15-entry dictionary carries the OOXML description. |
| `Signatures.OoxmlIsNeverReported` | analyser.py:200-212 | "MS Office document (OOXML)" is never printed. |
| `Signatures.GzipFileIff` | analyser.py:202-215 | "GZIP file" is reported iff the data starts `1F 8B` but not `1F 8B 08`. |
| `Signatures.OleMagicDetected` | analyser.py:211 | Data starting with the compound-file magic is reported as an OLE document. |
| `Preview.AsciiColumn` | analyser.py:144 | Each byte becomes its own character if printable and `.` otherwise, one character per byte. |
| `Preview.AsciiColumnIsPrintable` | analyser.py:144 | The ASCII column holds only characters 32..126. |
| `Preview.RowsFrom` | analyser.py:142-145 | Gives `ceil((end - j) / 16)` rows, where row `k` is the row starting at `j + 16k`. |
| `Preview.HexDump` | analyser.py:227-230 | Gives `ceil(min(len, limit) / 16)` rows with offsets 0, 16, 32, … |
| `Preview.RowsFromShow` | analyser.py:142-143 | The rows' hex bytes, concatenated, are the data from `j` up to the end of the last row, clipped to the data. |
| `Preview.HexDumpRowStarts` | analyser.py:227-228 | Row `k` exists iff `16k` is below `min(len, limit)`. |
| `Preview.HexDumpRowContents` | analyser.py:142-145 | Row `k` starts at `16k` and shows `min(16, len - 16k)` bytes in hex, which can run past the limit. Its ASCII column is built from the same bytes. |
| `Preview.HexDumpShowsPrefix` | analyser.py:227-228 | A dump shows exactly the first `16 × rows` bytes, clipped to the data. |
| `Preview.StreamDumpShowsSevenRows` | analyser.py:141-143 | A stream of 112 or more bytes gets 7 rows showing bytes 0..111, more than the 100 announced. |
| `Preview.ShortDataShownInFull` | analyser.py:227-228 | Data no longer than the limit is shown completely. |
| `Preview.Row` | analyser.py:142-144 | The row at offset `j` shows `min(16, len - j)` bytes, the ones from `j` on, and an ASCII column of the same length. |
| `Preview.HexDigit` | analyser.py:143 | The digit for a value below 16 is one of `0-9a-f` and reads back as that value. |
| `Preview.Hex2` | analyser.py:143 | `:02x` prints exactly two characters, each one of `0-9a-f`. |
| `Preview.Hex2RoundTrip` | analyser.py:143 | Reading back the two printed hex digits gives the byte. |
| `Preview.ToHex` | analyser.py:145 | The unpadded hex form has at least one character, each one of `0-9a-f`. |
| `Preview.ToHexLength` | analyser.py:145 | A number below `16^w` prints in at most `w` hex digits. |
| `Preview.HexColumn` | analyser.py:143 | `n` bytes print as `3n - 1` characters: byte `k`'s two digits at `3k` and `3k + 1`, and a single space after every byte but the last. |
| `Preview.HexColumnReadsBack` | analyser.py:143 | Each byte's two printed digits read back as that byte. |
| `Preview.Hex4` | analyser.py:145 | `:04x` prints at least four characters, and at least as many as the unpadded form. Each is one of `0-9a-f`. |
| `Preview.ToHexRoundTrip` | analyser.py:145 | The unpadded hex digits read back as the number. |
| `Preview.Hex4RoundTrip` | analyser.py:145 | The printed offset reads back as the offset, and an offset below 65536 prints as exactly four digits. With `Preview.Hex4`'s digit set, this leaves `0` as the only possible padding. |
| `Preview.PadRight` | analyser.py:145 | `:<47` keeps the text as a prefix and fills with spaces up to the width, never truncating. |
| `Preview.RenderRow` | analyser.py:145 | One printed row: the indent, the offset, `: `, the padded hex column, the separator and the ASCII column. |
| `Preview.RenderRowLayout` | analyser.py:145 | A row below offset 65536 prints as the indent, then four digits that read back as the offset, then `: `, then the hex column padded to 47. The space-bar-space separator sits at indent + 53, then the ASCII column. |
| `Preview.RowLayout` | analyser.py:142-145 | A rendered row lines up at any indent, and its ASCII column matches the bytes shown. |
| `Preview.StreamRowsAlign` | analyser.py:141-145 | Every printed stream row has four spaces of indent, the separator at columns 57..59, and the ASCII column of its shown bytes after it. |
| `Preview.RenderedRowsAlign` | analyser.py:227-230 | Every raw-dump row has two spaces of indent, the separator at columns 55..57, and the ASCII column of its shown bytes after it. |
| `Preview.LooksLikeText` | analyser.py:148 | The text test: every byte among the first 100 is NUL, tab, newline, carriage return or 32..126. |
| `Preview.TextTestReadsOnlyTheHeader` | analyser.py:148 | Bytes after the first 100 never change the text test. |
| `Preview.BinaryByteDefeatsText` | analyser.py:233 | One non-text byte among the first 100 fails the test. |
| `Preview.StreamSampleEncoding` | analyser.py:151-154 | UTF-16-LE iff the data starts with `FF FE`, UTF-8 otherwise. |
| `Preview.TextSampleIsNeverUtf16` | analyser.py:148-154 | Data that passes the text test is always sampled as UTF-8. |
| `StreamNames.JoinUnderscore` | analyser.py:168 | `'_'.join` is as long as the parts plus one separator between each two. It starts with the first part, and a `_` follows that part when there are two or more. |
| `StreamNames.Flatten` | analyser.py:167-170 | A tuple or list path is joined with `_`, and a string path is used as it is. |
| `StreamNames.ReplaceSeparators` | analyser.py:168-170 | Backslashes and slashes become `_`, and every other character is kept in place. |
| `StreamNames.KeepSafe` | analyser.py:173 | The result holds only safe characters, is no longer than the input, equals it when the input is already safe, and is empty when no input character is safe. |
| `StreamNames.KeepSafeAppend` | analyser.py:173 | Filtering distributes over concatenation. |
| `StreamNames.FallbackName` | analyser.py:174-175 | `stream_<i+1>` is non-empty and safe. |
| `StreamNames.SafeName` | analyser.py:166-175 | The name is the filtered path when that is non-empty, and `stream_<i+1>` otherwise. It is always non-empty and safe. |
| `StreamNames.SafeNameIdempotent` | analyser.py:166-175 | Sanitising a sanitised name again changes nothing. |
| `StreamNames.SafeNamesAreFixed` | analyser.py:173-175 | A non-empty safe name is kept as it is. |
| `StreamNames.ExportNamesCollide` | analyser.py:167-177 | `("a", "b")`, `"a_b"` and `"a/b"` all export as `a_b`. |
| `StreamNames.UnsafeNameFallsBack` | analyser.py:174-175 | Any plain name with no safe character and no path separator falls back to `stream_<i+1>`. |
| `StringScan.RunEnd` | wellcat_analyzer.py:25-27 | The inner loop stops at the first non-text byte or the end, after at least one byte. |
| `StringScan.ExtractStrings` | wellcat_analyzer.py:17-36 | Each pair found is a maximal text run that starts at a letter, is at least 3 long, and carries its ASCII decoding. The pairs are disjoint and in order. Every letter that starts a long enough run lies in some pair. A recorded run starts at the first letter of its stretch of text. |
| `StringScan.RecordedTextIsExact` | wellcat_analyzer.py:30 | The decoded text of a recorded run equals its bytes, with no replacement characters. |
| `ChunkPatterns.ChunkOffsets` | wellcat_analyzer.py:66 | Gives the offsets 0, 16, 32, …, as many as `range` yields. |
| `ChunkPatterns.ChunkOffsetsIff` | wellcat_analyzer.py:66 | An offset is visited iff it is a multiple of 16 and the chunk ends strictly before the end of the data. |
| `ChunkPatterns.FinalFullChunkSkipped` | wellcat_analyzer.py:66 | When the length is a multiple of 16, the last full chunk is never counted. |
| `ChunkPatterns.ChunkCountFormula` | wellcat_analyzer.py:66 | Non-empty data of length `n` yields `(n - 1) div 16` chunks. |
| `ChunkPatterns.Chunks` | wellcat_analyzer.py:66-67 | Each chunk is the 16 bytes at its offset. |
| `ChunkPatterns.Bump` | wellcat_analyzer.py:68 | `patterns[p] += 1` raises `p`'s count by one, adding it last if new. It leaves every other entry and the key order unchanged, and keeps keys distinct. |
| `ChunkPatterns.BumpCounts` | wellcat_analyzer.py:68 | Counting one more chunk keeps every count equal to the chunk's multiplicity. |
| `ChunkPatterns.Count` | wellcat_analyzer.py:64-68 | The counter holds each distinct chunk once, with its number of occurrences. The counts sum to the number of chunks. |
| `ChunkPatterns.CountedEntry` | wellcat_analyzer.py:64-68 | An entry of the counter holds its pattern's multiplicity, which is positive. |
| `ChunkPatterns.CountedPatternsAreChunks` | wellcat_analyzer.py:66-68 | Every counted pattern is one of the chunks and is 16 bytes long. |
| `ChunkPatterns.FirstMax` | wellcat_analyzer.py:71 | Picks an entry with the largest count, the first of any tie. |
| `ChunkPatterns.MostCommon` | wellcat_analyzer.py:71 | Returns `min(n, len)` entries of the counter in non-increasing count order. Every entry left out counts no more than any entry returned. With at most `n` entries, all are returned. Among tied counts, earlier-inserted entries are taken first. When the counter's patterns are distinct, as a `Counter`'s keys are, an entry left out that comes before a returned one counts strictly less. |
| `ChunkPatterns.Frequent` | wellcat_analyzer.py:71-72 | At most as many entries are printed as the top list holds. |
| `ChunkPatterns.FrequentSubMultiset` | wellcat_analyzer.py:71-72 | The printed entries are a sub-multiset of the top list, so no entry is printed more often than it occurs there. |
| `ChunkPatterns.FrequentSound` | wellcat_analyzer.py:71-72 | Only entries of the top list with count above 2 are printed. |
| `ChunkPatterns.FrequentComplete` | wellcat_analyzer.py:71-72 | Every entry of the top list with count above 2 is printed. |
| `ChunkPatterns.FrequentKeepsAll` | wellcat_analyzer.py:71-72 | If all top entries are above 2, all of them are printed, in order. |
| `ChunkPatterns.ShownAreCounted` | wellcat_analyzer.py:66-72 | Every printed entry is a counted chunk, repeats more than twice, and has its true count. |
| `ChunkPatterns.ShownCrowdOut` | wellcat_analyzer.py:71-72 | A repeated entry that is not printed was crowded out of a full report by entries at least as frequent. |
| `ChunkPatterns.ReportKeepsTieOrder` | wellcat_analyzer.py:71-72 | Filtering keeps the tie order: a repeated entry left out counts strictly less than any later counter entry that is printed. |
| `ChunkPatterns.RepeatedPatterns` | wellcat_analyzer.py:61-74 | At most 20 entries are printed, a sub-multiset of the counter, so no pattern is printed twice. Each repeats more than twice, with its true count. A pattern that repeats more than twice and is not printed was crowded out of a full 20-entry report by patterns at least as frequent. When it comes before a printed pattern in the counter, it counts strictly less, so ties at the cut-off go to the first-counted chunk. |
| `PixelGrid.Place` | wellcat_analyzer.py:83-84 | Byte `i` goes to a column below 512, and row × 512 + column is `i`. |
| `PixelGrid.PlaceInsideGrid` | wellcat_analyzer.py:79-85 | The guard `row < height and col < width` always holds. |
| `PixelGrid.PlaceInverse` | wellcat_analyzer.py:83-84 | `row * 512 + col` gives the byte's offset back. |
| `PixelGrid.PlaceInjective` | wellcat_analyzer.py:83-86 | No two bytes share a pixel. |
| `PixelGrid.PlaceOfRowMajor` | wellcat_analyzer.py:83-84 | The pixel at `(r, c)` receives byte `512r + c`. |
| `PixelGrid.Paint` | wellcat_analyzer.py:78-86 | The image has `len div 512 + 1` rows of 512. Pixel `(r, c)` holds byte `512r + c` when it exists, and 0 otherwise. |
| `PixelGrid.ExactMultipleLeavesEmptyRow` | wellcat_analyzer.py:79 | When the length is a multiple of 512, the last row receives no byte. |
| `Header.RunEnd` | wellcat_parser.py:20 | A greedy `+` run: all bytes up to the end are in the class, and the next byte is not. |
| `Header.RunEndUnique` | wellcat_parser.py:20 | That end is the only one with this property. |
| `Header.VersionMatchAt` | wellcat_parser.py:20 | `StressData.([0-9.]+)` matches at `p`: the tag, one byte other than a newline, then at least one digit or dot. |
| `Header.SearchVersion` | wellcat_parser.py:20 | `re.search` gives the leftmost match position, or none if nothing matches. |
| `Header.Version` | wellcat_parser.py:17-22 | There is no version iff no position of the first 100 bytes matches. A version is a non-empty string of digits and dots. |
| `Header.VersionRunText` | wellcat_parser.py:22 | Decoding a `[0-9.]` run yields only digits and dots. |
| `Header.VersionIsGreedyRun` | wellcat_parser.py:17-22 | The version is the maximal `[0-9.]` run after the leftmost match, inside the 100-byte header. Its characters are those bytes. |
| `Header.VersionReadsOnlyTheHeader` | wellcat_parser.py:17-20 | Bytes after the first 100 never change the version. |
| `Header.VersionExample` | wellcat_parser.py:20-22 | `StressData.2.1` gives version `2.1`. |
| `Header.VersionWildcard` | wellcat_parser.py:20 | The `.` after `StressData` accepts any byte but a newline. |
| `Header.DesignMatchAt` | wellcat_parser.py:25 | `Design #([0-9]+) ([A-Z]+)` matches at `p`: the tag, the maximal digit run (non-empty), a space and a capital letter. |
| `Header.DesignBacktrackingAgrees` | wellcat_parser.py:25 | The greedy-digits matcher accepts exactly where the backtracking regex does. |
| `Header.SearchDesign` | wellcat_parser.py:25 | The leftmost `Design #` match, or none if nothing matches. |
| `Header.FindDesign` | wellcat_parser.py:25-28 | There is no design iff nothing matches. Otherwise it is read from the groups of the leftmost match, and the well name is a non-empty run of capital letters. |
| `Header.DesignAt` | wellcat_parser.py:25-28 | The number is the value of the digit run after the tag. The name is the maximal run of capitals after the following space, character for byte. |
| `Header.UpperRunText` | wellcat_parser.py:28 | Decoding an `[A-Z]` run yields only capital letters. |
| `Header.DesignExample` | wellcat_parser.py:24-28 | `Design #1 MANGO` gives design 1 of well `MANGO`. |
| `Header.DesignNumberRoundTrip` | wellcat_parser.py:25-27 | A number rendered after `Design #` and followed by a space and a capital letter reads back as itself. |
| `Decimal.ToDecimal` | analyser.py:175 | `str(n)` is a non-empty string of digits, with a leading `0` only for zero. |
| `Decimal.Value` | wellcat_parser.py:27 | `int()` of `k` digits is below `10^k`. |
| `Decimal.ValueOfToDecimal` | wellcat_parser.py:27 | `int(str(n)) == n`. |
| `Decimal.LeadingZeroIgnored` | wellcat_parser.py:27 | A leading zero does not change `int`'s value. |
| `Records.StripLeft` | wellcat_parser.py:41 | Removes only leading NULs, and all of them. |
| `Records.StripRight` | wellcat_parser.py:41 | Removes only trailing NULs, and all of them. |
| `Records.StripNul` | wellcat_parser.py:41 | The result starts and ends with a non-NUL character and is no longer than the input. |
| `Records.StripNulIdempotent` | wellcat_parser.py:41 | Stripping twice is stripping once. |
| `Records.StripNulRemovesPadding` | wellcat_parser.py:41 | NUL padding on either side of a NUL-free-ended grade is removed, and nothing else is. |
| `Records.GradeRoundTrip` | wellcat_parser.py:41 | An ASCII grade written NUL-padded into bytes 8..16 decodes and reads back as that grade. |
| `Records.GradeIsAscii` | wellcat_parser.py:41 | `decode('ascii')` succeeds iff every byte of bytes 8..15 is below 128. |
| `Records.RecordItem` | wellcat_parser.py:39-50 | Diameter, length and rating are the words at bytes 0..3, 4..7 and 16..19. The grade is bytes 8..15 decoded and NUL-stripped, at most 8 characters. |
| `Records.ItemsOfRecord` | wellcat_parser.py:38-53 | A record adds one item iff its grade bytes are ASCII, and that item is built from the record. |
| `Records.Kept` | wellcat_parser.py:33-35 | Gives strictly increasing offsets from `i` whose records fit and decode. |
| `Records.KeptAreSlots` | wellcat_parser.py:33 | Every kept offset lies on the 32-byte grid from `i`. |
| `Records.KeptBound` | wellcat_parser.py:33-34 | At most `(len - i) div 32` records are kept. |
| `Records.KeptIsComplete` | wellcat_parser.py:33-53 | A grid record that fits and decodes is kept. |
| `Records.ItemsAt` | wellcat_parser.py:35-50 | Gives one item per kept offset, built from the record there. |
| `Records.SliceRecords` | wellcat_parser.py:33-53 | The loop yields exactly the items of the kept offsets, in order. |
| `Records.ShortDataHasNoItems` | wellcat_parser.py:33-34 | Data shorter than 232 bytes gives no items. |
| `Records.ItemCountBound` | wellcat_parser.py:33-34 | At most `(len - 200) div 32` items. |
| `Records.KeptOffsetsIff` | wellcat_parser.py:33-53 | An offset yields an item iff it is on the grid from 200, the record fits, and its grade bytes are ASCII. |
| `Parser.WellInfoOf` | wellcat_parser.py:10-28 | Holds only the three keys. `version` is present iff its search matched. `design_number` and `well_name` are present together iff the design search matched. Each value is its search's result. |
| `Parser.ParseWellcatData` | wellcat_parser.py:4-58 | Returns the well-info dict and the items of exactly the kept records. |
| `Parser.VersionValueShape` | wellcat_parser.py:20-22 | A stored version is non-empty text of digits and dots. |

## Left out

- File reading and writing, printing, report text, and the saved `.decoded`, `.decompressed` and stream files: the operations return what would be printed or saved.
- The base64, zlib and olefile libraries: they are oracle parameters, not models of those libraries.
- The metadata dump of analyser.py lines 88-119: it prints only, and its values come from olefile.
- Text samples (analyser.py lines 149-159 and 234-239): the UTF-8 decoding with replacement is not modelled. Only the codec choice and the gate that decides whether a sample is shown are modelled.
- The float and double scans of wellcat_analyzer.py lines 38-59: floating point is not modelled.
- Matplotlib plotting: only the pixel grid it draws is modelled.
- `Records.RecordItem`: `struct.unpack('<f', …)` is not decoded, so diameter, length and rating are kept as their raw little-endian 4-byte words.
- `StreamNames.IsAlnum`: `str.isalnum` is restricted to ASCII letters and digits, because Unicode character classes are not modelled.
- `ChunkPatterns.MostCommon`: the order of tied entries within the returned list is not stated. Which tied entries are returned is stated: the first-inserted ones.
- `ChunkPatterns.RepeatedPatterns`: the order of the printed entries is not stated. Which entries are printed, their counts, and which tied chunks win the last places are stated.
- `Parser.WellInfoOf`: the result is a map, so the key insertion order of the Python dict is dropped. The viewer iterates that dict in that order when it displays the well info (wellcat_viewer.py line 32). The order is version, then design number, then well name, which follows wellcat_parser.py lines 22, 27 and 28.
- `Header.DesignAt`: Python 3.11 and later refuse `int()` on more than 4300 digits and raise `ValueError`, which `parse_wellcat_data` does not catch. The model reads a digit run of any length, so `Header.DesignNumberRoundTrip` also covers numbers that such a Python would reject. The limit depends on the interpreter version and its settings.
- `Analyser.ReportStream`: the error message of a stream that raises is not modelled. Size and read failures are merged into one unreadable case.
- wellcat_viewer.py and run_wellcat_analyzer.py (the GUI and the driver): presentation and orchestration only. The driver's use of a `pipe_inventory` key that `parse_wellcat_data` never produces is not modelled.

## Findings

| source | as written | input that shows it | evidently intended | confidence | as-written member | corrected member |
|---|---|---|---|---|---|---|
| analyser.py:187 | After the stream loop, `export_dir` is read. It is first assigned at line 162, inside the per-stream `try`. If no stream reaches line 162, the read raises `UnboundLocalError`, the handler at line 189 catches it, and a valid compound file is analysed as raw binary. | A container whose `listdir()` is empty, or whose every stream fails to size or read. | The raw fallback only when `OleFileIO` cannot open the data. | not executed | `Analyser.ContainerAsWritten` | `Analyser.Container` |

=== FILE: Analyser.dfy ===
/**
 `analyze_edm_file` of analyser.py as a function of the file's bytes: unwrap
 and decompress, flag the compound-file (CFBF) magic, then either report the
 container's streams or fall back to the raw-binary diagnostics. The olefile
 library is an oracle that lists the streams with their contents.
 */
module Analyser {
  import opened Wrappers
  import opened ByteClasses
  import opened Decoder
  import opened Preview
  import opened Signatures
  import opened StreamNames

  /** `b'\xD0\xCF\x11\xE0\xA1\xB1\x1A\xE1'`, compared against `decompressed_data[:8]`. */
  const CfbfMagic: Bytes := [0xD0, 0xCF, 0x11, 0xE0, 0xA1, 0xB1, 0x1A, 0xE1]

  /** Streams are read with `read(min(stream_size, 10000))`. */
  const StreamReadCap: nat := 10000

  /** The test of line 75; a slice of shorter data is shorter than the magic. */
  predicate HasCfbfSignature(data: Bytes) {
    Take(data, |CfbfMagic|) == CfbfMagic
  }

  /** The magic check holds iff bytes 0..7 are exactly the magic. */
  lemma CfbfSignatureIff(data: Bytes)
    ensures HasCfbfSignature(data) <==> |data| >= 8 && forall k :: 0 <= k < 8 ==> data[k] == CfbfMagic[k]
  {
    if |data| >= 8 && forall k :: 0 <= k < 8 ==> data[k] == CfbfMagic[k] {
      assert data[..8] == CfbfMagic;
    }
  }

  /** Line 75 and the OLE entry of the signature table recognise the same data. */
  lemma CfbfSignatureAgreesWithTable(data: Bytes)
    ensures HasCfbfSignature(data) <==> DetectEntry(data) == Some(10)
  {
    if HasCfbfSignature(data) {
      OleMagicDetected(data);
    }
    if DetectEntry(data) == Some(10) {
      assert StartsWith(data, SignatureTable[10].magic);
    }
  }

  /** One entry of `ole.listdir()`; `content` is `None` when sizing or reading it raises. */
  datatype ListedStream = ListedStream(path: StreamPath, content: Option<Bytes>)

  /** `olefile.OleFileIO(...)`: `None` when opening raises. */
  type OleOracle = Bytes -> Option<seq<ListedStream>>

  /** What is printed and exported for one readable stream. */
  datatype StreamReport = StreamReport(index: nat, size: nat, rows: seq<HexRow>, showsText: bool,
                                       exportName: string, exported: Bytes)

  /** The raw-binary diagnostics of lines 194-239. */
  datatype RawReport = RawReport(size: nat, fileType: Option<string>, rows: seq<HexRow>, showsText: bool)

  /** What the container branch produces: stream reports, and possibly the raw fallback. */
  datatype ContainerOutcome = ContainerOutcome(streams: seq<StreamReport>, raw: Option<RawReport>)

  datatype Analysis =
    | DecompressionFailed(wasBase64: bool, payload: Bytes)
    | Analysed(wasBase64: bool, payload: Bytes, decompressed: Bytes, cfbf: bool, outcome: ContainerOutcome)

  /** The body of the per-stream `try` (lines 131-181) for the stream at position `index`. */
  function ReportStream(s: ListedStream, index: nat): (r: Option<StreamReport>)
    ensures r.Some? <==> s.content.Some?
    ensures r.Some? ==> var rep := r.value;
                        && rep.index == index
                        && rep.size == |s.content.value|
                        && |rep.exported| == Min(rep.size, StreamReadCap)
                        && rep.exported == s.content.value[..|rep.exported|]
                        && |rep.exportName| > 0 && AllSafe(rep.exportName)
                        && rep.exportName == SafeName(s.path, index)
                        && rep.rows == HexDump(rep.exported, StreamDumpLimit)
                        && rep.showsText == LooksLikeText(rep.exported)
  {
    match s.content
    case None => None
    case Some(content) =>
      var data := Take(content, StreamReadCap);
      Some(StreamReport(index, |content|, HexDump(data, StreamDumpLimit), LooksLikeText(data),
                        SafeName(s.path, index), data))
  }

  /** The positions of `ole.listdir()` whose stream is read without raising, in listing order. */
  function Readable(listing: seq<ListedStream>, from: nat): (ps: seq<nat>)
    requires from <= |listing|
    ensures forall j :: 0 <= j < |ps| ==> from <= ps[j] < |listing| && listing[ps[j]].content.Some?
    ensures forall j, k :: 0 <= j < k < |ps| ==> ps[j] < ps[k]
    decreases |listing| - from
  {
    if from == |listing| then []
    else if listing[from].content.Some? then [from] + Readable(listing, from + 1)
    else Readable(listing, from + 1)
  }

  /** No readable stream is missed. */
  lemma {:induction false} ReadableIsComplete(listing: seq<ListedStream>, from: nat, i: nat)
    requires from <= i < |listing| && listing[i].content.Some?
    ensures i in Readable(listing, from)
    decreases |listing| - from
  {
    if i > from {
      ReadableIsComplete(listing, from + 1, i);
    }
  }

  /** `for i, stream_path in enumerate(ole.listdir())`: one report per readable stream, in order. */
  function ReportStreams(listing: seq<ListedStream>): (reps: seq<StreamReport>)
    ensures |reps| == |Readable(listing, 0)|
    ensures forall k :: 0 <= k < |reps| ==> reps[k].index == Readable(listing, 0)[k]
                                            && ReportStream(listing[reps[k].index], reps[k].index) == Some(reps[k])
    ensures forall j, k :: 0 <= j < k < |reps| ==> reps[j].index < reps[k].index
  {
    var ps := Readable(listing, 0);
    seq(|ps|, k requires 0 <= k < |ps| => ReportStream(listing[ps[k]], ps[k]).value)
  }

  /** Every readable stream is reported, under its own position, and no unreadable one is. */
  lemma ReadableStreamsAreReported(listing: seq<ListedStream>, i: nat)
    requires i < |listing|
    ensures listing[i].content.Some? <==> exists k :: 0 <= k < |ReportStreams(listing)|
                                                   && ReportStreams(listing)[k].index == i
  {
    var reps := ReportStreams(listing);
    if listing[i].content.Some? {
      ReadableIsComplete(listing, 0, i);
      var k :| 0 <= k < |reps| && Readable(listing, 0)[k] == i;
      assert reps[k].index == i;
    } else {
      forall k | 0 <= k < |reps| ensures reps[k].index != i {
        assert ReportStream(listing[reps[k].index], reps[k].index).Some?;
      }
    }
  }

  /**
   Lines 195-239: the size, the first matching signature, a dump of the first
   256 bytes and the text test over the first 100.
   */
  function RawAnalysis(data: Bytes): (r: RawReport)
    ensures r.size == |data|
    ensures r.fileType.None? <==> forall i :: 0 <= i < |SignatureTable| ==> !StartsWith(data, SignatureTable[i].magic)
    ensures r.fileType.Some? ==> exists k :: 0 <= k < |SignatureTable| && StartsWith(data, SignatureTable[k].magic)
                                           && (forall j :: 0 <= j < k ==> !StartsWith(data, SignatureTable[j].magic))
                                           && r.fileType.value == SignatureTable[k].fileType
    ensures r.rows == HexDump(data, RawDumpLimit) && |r.rows| == (Min(|data|, RawDumpLimit) + RowWidth - 1) / RowWidth
    ensures r.showsText == LooksLikeText(data)
  {
    RawReport(|data|, DetectFileType(data), HexDump(data, RawDumpLimit), LooksLikeText(data))
  }

  /**
   The container branch AS WRITTEN. Line 187 reads `export_dir`, which is
   first assigned at line 162 inside the per-stream `try`. When no stream gets
   that far the read raises, the handler of line 189 takes over, and the raw
   diagnostics run as if the data were not a compound file at all.
   */
  function ContainerAsWritten(data: Bytes, ole: OleOracle): (r: ContainerOutcome)
    ensures r.raw.Some? <==> ole(data).None? || forall i :: 0 <= i < |ole(data).value| ==> ole(data).value[i].content.None?
    ensures r.raw.Some? ==> r.raw == Some(RawAnalysis(data)) && r.streams == []
    ensures r.raw.None? ==> ole(data).Some? && r.streams == ReportStreams(ole(data).value)
  {
    match ole(data)
    case None => ContainerOutcome([], Some(RawAnalysis(data)))
    case Some(listing) =>
      var reps := ReportStreams(listing);
      if reps == [] then
        assert forall i :: 0 <= i < |listing| ==> listing[i].content.None? by {
          forall i | 0 <= i < |listing| ensures listing[i].content.None? {
            ReadableStreamsAreReported(listing, i);
          }
        }
        ContainerOutcome([], Some(RawAnalysis(data)))
      else
        assert listing[reps[0].index].content.Some?;
        ContainerOutcome(reps, None)
  }

  /** A compound file that lists no streams is reported as a failure to open it. */
  lemma EmptyContainerFallsBackToRaw(data: Bytes, ole: OleOracle)
    requires ole(data) == Some([])
    ensures ContainerAsWritten(data, ole).raw == Some(RawAnalysis(data))
  {
  }

  /** The container branch as evidently intended: raw diagnostics only when opening fails. */
  function Container(data: Bytes, ole: OleOracle): (r: ContainerOutcome)
    ensures r.raw.Some? <==> ole(data).None?
    ensures r.raw.Some? ==> r.raw == Some(RawAnalysis(data)) && r.streams == []
    ensures ole(data).Some? ==> r.streams == ReportStreams(ole(data).value)
  {
    match ole(data)
    case None => ContainerOutcome([], Some(RawAnalysis(data)))
    case Some(listing) => ContainerOutcome(ReportStreams(listing), None)
  }

  /** The two agree whenever some stream is readable. */
  lemma ContainerAgreesWhenAStreamIsRead(data: Bytes, ole: OleOracle, i: nat)
    requires ole(data).Some? && i < |ole(data).value| && ole(data).value[i].content.Some?
    ensures ContainerAsWritten(data, ole) == Container(data, ole)
    ensures Container(data, ole).raw.None?
  {
  }

  /**
   The whole of `analyze_edm_file`, with the library calls as oracles and the
   container branch as written.
   */
  function AnalyseEdm(encoded: Bytes, b64: Base64Oracle, inflate: InflateOracle, ole: OleOracle): (r: Analysis)
    ensures r.wasBase64 == LooksBase64(encoded)
    ensures r.payload == Unwrap(encoded, b64)
    ensures r.DecompressionFailed? <==> forall w :: w in Attempts ==> inflate(w, r.payload).None?
    ensures r.Analysed? ==> Some(r.decompressed) == Decompress(r.payload, inflate)
                            && r.cfbf == HasCfbfSignature(r.decompressed)
                            && r.outcome == ContainerAsWritten(r.decompressed, ole)
  {
    var payload := Unwrap(encoded, b64);
    match Decompress(payload, inflate)
    case None => DecompressionFailed(LooksBase64(encoded), payload)
    case Some(decompressed) =>
      Analysed(LooksBase64(encoded), payload, decompressed, HasCfbfSignature(decompressed),
               ContainerAsWritten(decompressed, ole))
  }

  /** `analyze_edm_file` with the corrected container branch. */
  function AnalyseEdmCorrected(encoded: Bytes, b64: Base64Oracle, inflate: InflateOracle, ole: OleOracle): (r: Analysis)
    ensures r.wasBase64 == LooksBase64(encoded)
    ensures r.payload == Unwrap(encoded, b64)
    ensures r.DecompressionFailed? <==> forall w :: w in Attempts ==> inflate(w, r.payload).None?
    ensures r.Analysed? ==> Some(r.decompressed) == Decompress(r.payload, inflate)
                            && r.cfbf == HasCfbfSignature(r.decompressed)
                            && r.outcome == Container(r.decompressed, ole)
  {
    var payload := Unwrap(encoded, b64);
    match Decompress(payload, inflate)
    case None => DecompressionFailed(LooksBase64(encoded), payload)
    case Some(decompressed) =>
      Analysed(LooksBase64(encoded), payload, decompressed, HasCfbfSignature(decompressed),
               Container(decompressed, ole))
  }

  /**
   The magic flag is only a warning: whether or not it is present, a container
   that opens has its readable streams reported, and the raw fallback runs only
   when none of them is readable.
   */
  lemma MagicDoesNotGateOpening(encoded: Bytes, b64: Base64Oracle, inflate: InflateOracle, ole: OleOracle)
    requires AnalyseEdm(encoded, b64, inflate, ole).Analysed?
    requires !AnalyseEdm(encoded, b64, inflate, ole).cfbf
    requires ole(AnalyseEdm(encoded, b64, inflate, ole).decompressed).Some?
    ensures var r := AnalyseEdm(encoded, b64, inflate, ole);
            var listing := ole(r.decompressed).value;
            && (r.outcome.raw.None? <==> exists i :: 0 <= i < |listing| && listing[i].content.Some?)
            && (r.outcome.raw.None? ==> r.outcome.streams == ReportStreams(listing))
  {
  }
}

=== FILE: ByteClasses.dfy ===
/**
 Bytes and the character classes the scripts test bytes against.
 Python `bytes` are sequences of integers 0..255; so are these.
 */
module ByteClasses {

  newtype byte = b: int | 0 <= b < 256

  type Bytes = seq<byte>

  /** `32 <= b <= 126`: the bytes shown as themselves in a hex dump. */
  predicate IsPrintable(b: byte) {
    32 <= b <= 126
  }

  /** `b == 0 or 32 <= b <= 126 or b in (9, 10, 13)`: the "text" byte class. */
  predicate IsTextByte(b: byte) {
    b == 0 || b == 9 || b == 10 || b == 13 || IsPrintable(b)
  }

  /** `bytes.isalpha` on a one-byte string: an ASCII letter. */
  predicate IsLetter(b: byte) {
    (65 <= b <= 90) || (97 <= b <= 122)
  }

  /** Regex class `[A-Z]`. */
  predicate IsUpper(b: byte) {
    65 <= b <= 90
  }

  /** Regex class `[0-9]`. */
  predicate IsDigit(b: byte) {
    48 <= b <= 57
  }

  /** A byte that `decode('ascii')` accepts. */
  predicate IsAscii(b: byte) {
    b < 128
  }

  predicate AllAscii(bs: Bytes) {
    forall k :: 0 <= k < |bs| ==> IsAscii(bs[k])
  }

  /** `data.startswith(prefix)`. */
  predicate StartsWith(data: Bytes, prefix: Bytes) {
    |prefix| <= |data| && data[..|prefix|] == prefix
  }

  function Min(a: int, b: int): int {
    if a <= b then a else b
  }

  /** `data[:n]`: Python slicing clamps the end to the length. */
  function Take(data: Bytes, n: nat): (r: Bytes)
    ensures |r| == Min(n, |data|)
    ensures forall k :: 0 <= k < |r| ==> r[k] == data[k]
  {
    if n <= |data| then data[..n] else data
  }

  /** The character with the byte's code point (Latin-1 view of a byte). */
  function CharOf(b: byte): char {
    (b as int) as char
  }

  /** `bs.decode('ascii', errors='replace')`: non-ASCII bytes become U+FFFD. */
  function AsciiDecode(bs: Bytes): (s: string)
    ensures |s| == |bs|
    ensures forall k :: 0 <= k < |bs| ==> (IsAscii(bs[k]) <==> s[k] as int == bs[k] as int)
  {
    seq(|bs|, k requires 0 <= k < |bs| => if IsAscii(bs[k]) then CharOf(bs[k]) else '\U{FFFD}')
  }
}

=== FILE: ChunkPatterns.dfy ===
/**
 The "REPEATING PATTERNS" pass of `reverse_engineer_wellcat_format`
 (wellcat_analyzer.py lines 61-74): cut the data into 16-byte chunks at
 offsets `range(0, len(data) - 16, 16)`, count equal chunks with a
 `collections.Counter`, and report those of the 20 most common that occur
 more than twice.
 */
module ChunkPatterns {
  import opened ByteClasses

  const PatternSize: nat := 16
  /** `patterns.most_common(20)`. */
  const ReportTop: nat := 20
  /** `if count > 2`. */
  const RepeatThreshold: nat := 2

  /** One counter entry. */
  datatype Tally = Tally(pattern: Bytes, count: nat)

  /** How many offsets `range(0, n - 16, 16)` yields. */
  function ChunkCount(n: nat): nat {
    if n <= PatternSize then 0 else (n - PatternSize + PatternSize - 1) / PatternSize
  }

  /** The chunk start offsets. */
  function ChunkOffsets(n: nat): (offs: seq<nat>)
    ensures |offs| == ChunkCount(n)
    ensures forall k :: 0 <= k < |offs| ==> offs[k] == PatternSize * k
  {
    seq(ChunkCount(n), k => PatternSize * k)
  }

  /** The offsets are exactly the multiples of 16 strictly below `n - 16`. */
  lemma ChunkOffsetsIff(n: nat, i: nat)
    ensures i in ChunkOffsets(n) <==> i % PatternSize == 0 && i + PatternSize < n
  {
    var offs := ChunkOffsets(n);
    if i % PatternSize == 0 && i + PatternSize < n {
      assert offs[i / PatternSize] == i;
    }
  }

  /** So a last chunk that ends exactly at the end of the data is never counted. */
  lemma FinalFullChunkSkipped(n: nat)
    requires n >= PatternSize && n % PatternSize == 0
    ensures n - PatternSize !in ChunkOffsets(n)
  {
    ChunkOffsetsIff(n, n - PatternSize);
  }

  /** The count equals `(n - 1) div 16` for non-empty data. */
  lemma ChunkCountFormula(n: nat)
    requires n >= 1
    ensures ChunkCount(n) == (n - 1) / PatternSize
  {
  }

  /** `data[i:i+16]` for every offset; each chunk lies inside the data, so it has 16 bytes. */
  function Chunks(data: Bytes): (chunks: seq<Bytes>)
    ensures |chunks| == ChunkCount(|data|)
    ensures forall k :: 0 <= k < |chunks| ==> |chunks[k]| == PatternSize
                                              && chunks[k] == data[PatternSize * k .. PatternSize * k + PatternSize]
  {
    var offs := ChunkOffsets(|data|);
    seq(|offs|, k requires 0 <= k < |offs| => data[offs[k] .. offs[k] + PatternSize])
  }

  predicate DistinctPatterns(t: seq<Tally>) {
    forall i, j :: 0 <= i < j < |t| ==> t[i].pattern != t[j].pattern
  }

  function SumCounts(t: seq<Tally>): nat {
    if t == [] then 0 else SumCounts(t[..|t| - 1]) + t[|t| - 1].count
  }

  lemma {:induction false} SumCountsUpdate(t: seq<Tally>, i: nat, e: Tally)
    requires i < |t|
    ensures SumCounts(t[i := e]) == SumCounts(t) - t[i].count + e.count
    decreases |t|
  {
    var u := t[i := e];
    if i < |t| - 1 {
      assert u[..|u| - 1] == t[..|t| - 1][i := e];
      SumCountsUpdate(t[..|t| - 1], i, e);
    } else {
      assert u[..|u| - 1] == t[..|t| - 1];
    }
  }

  function IndexOfPattern(t: seq<Tally>, p: Bytes): (r: int)
    ensures -1 <= r < |t|
    ensures r >= 0 ==> t[r].pattern == p
    ensures r < 0 ==> forall i :: 0 <= i < |t| ==> t[i].pattern != p
  {
    if t == [] then -1
    else if t[|t| - 1].pattern == p then |t| - 1
    else IndexOfPattern(t[..|t| - 1], p)
  }

  /** `patterns[pattern] += 1`: an existing key keeps its place, a new one goes last. */
  function Bump(t: seq<Tally>, p: Bytes): (u: seq<Tally>)
    requires DistinctPatterns(t)
    ensures DistinctPatterns(u)
    ensures |t| <= |u| <= |t| + 1
    ensures SumCounts(u) == SumCounts(t) + 1
    ensures forall i :: 0 <= i < |u| ==> (if u[i].pattern == p then u[i].count == (if i < |t| then t[i].count else 0) + 1
                                          else i < |t| && u[i] == t[i])
    ensures forall i :: 0 <= i < |t| ==> u[i].pattern == t[i].pattern
    ensures exists i :: 0 <= i < |u| && u[i].pattern == p
  {
    var i := IndexOfPattern(t, p);
    if i >= 0 then
      SumCountsUpdate(t, i, Tally(p, t[i].count + 1));
      t[i := Tally(p, t[i].count + 1)]
    else
      var u := t + [Tally(p, 1)];
      assert u[..|u| - 1] == t;
      u
  }

  /** What the counter holds after counting `chunks`. */
  ghost predicate Counts(t: seq<Tally>, chunks: seq<Bytes>) {
    && DistinctPatterns(t)
    && (forall i :: 0 <= i < |t| ==> t[i].count == multiset(chunks)[t[i].pattern] && t[i].count > 0)
    && (forall c :: c in chunks ==> exists i :: 0 <= i < |t| && t[i].pattern == c)
    && SumCounts(t) == |chunks|
  }

  /** Counting one more chunk keeps the counter exact. */
  lemma BumpCounts(before: seq<Tally>, prefix: seq<Bytes>, last: Bytes)
    requires Counts(before, prefix)
    ensures Counts(Bump(before, last), prefix + [last])
  {
    var t := Bump(before, last);
    var chunks := prefix + [last];
    forall i | 0 <= i < |t| ensures t[i].count == multiset(chunks)[t[i].pattern] && t[i].count > 0 {
      if t[i].pattern == last {
        if i >= |before| {
          forall c | c in prefix ensures c != last {
            var j :| 0 <= j < |before| && before[j].pattern == c;
            assert t[j].pattern == c;
          }
          assert last !in prefix;
          assert last !in multiset(prefix);
        }
      }
    }
    forall c | c in chunks ensures exists i :: 0 <= i < |t| && t[i].pattern == c {
      if c != last {
        assert c in prefix;
        var i :| 0 <= i < |before| && before[i].pattern == c;
        assert t[i].pattern == c;
      }
    }
  }

  /**
   The counter after the loop of lines 66-68, in first-occurrence order: each
   distinct chunk once, with the number of offsets holding it.
   */
  function Count(chunks: seq<Bytes>): (t: seq<Tally>)
    ensures Counts(t, chunks)
  {
    if chunks == [] then []
    else
      var prefix := chunks[..|chunks| - 1];
      var last := chunks[|chunks| - 1];
      assert chunks == prefix + [last];
      BumpCounts(Count(prefix), prefix, last);
      Bump(Count(prefix), last)
  }

  /** An entry of an exact counter holds the multiplicity of its pattern. */
  lemma CountedEntry(t: seq<Tally>, chunks: seq<Bytes>, x: Tally)
    requires Counts(t, chunks) && x in t
    ensures x.count == multiset(chunks)[x.pattern] && x.count > 0
  {
    var i :| 0 <= i < |t| && t[i] == x;
  }

  /** Every counted pattern is one of the chunks, hence exactly 16 bytes long. */
  lemma CountedPatternsAreChunks(data: Bytes, x: Tally)
    requires x in Count(Chunks(data))
    ensures x.pattern in Chunks(data) && |x.pattern| == PatternSize
  {
    var chunks := Chunks(data);
    CountedEntry(Count(chunks), chunks, x);
    assert x.pattern in multiset(chunks);
    var k :| 0 <= k < |chunks| && chunks[k] == x.pattern;
  }

  // ---- most_common(20) ----

  /** The index of the first entry with the largest count. */
  function FirstMax(t: seq<Tally>): (m: nat)
    requires |t| > 0
    ensures m < |t|
    ensures forall k :: 0 <= k < |t| ==> t[k].count <= t[m].count
    ensures forall k :: 0 <= k < m ==> t[k].count < t[m].count
  {
    if |t| == 1 then 0
    else
      var m := FirstMax(t[..|t| - 1]);
      if t[|t| - 1].count > t[m].count then |t| - 1 else m
  }

  function RemoveAt(t: seq<Tally>, m: nat): (u: seq<Tally>)
    requires m < |t|
    ensures |u| == |t| - 1
  {
    t[..m] + t[m + 1..]
  }

  lemma RemoveAtMultiset(t: seq<Tally>, m: nat)
    requires m < |t|
    ensures multiset(t) == multiset(RemoveAt(t, m)) + multiset{t[m]}
  {
    assert t == t[..m] + [t[m]] + t[m + 1..];
  }

  predicate NonIncreasing(s: seq<Tally>) {
    forall j, k :: 0 <= j < k < |s| ==> s[j].count >= s[k].count
  }

  /** Every entry of `low` counts no more than every entry of `high`. */
  predicate Dominates(high: seq<Tally>, low: seq<Tally>) {
    forall j, k :: 0 <= j < |high| && 0 <= k < |low| ==> low[k].count <= high[j].count
  }

  lemma RemoveAtKeepsOthers(t: seq<Tally>, m: nat, k: nat)
    requires m < |t| && k < |RemoveAt(t, m)|
    ensures RemoveAt(t, m)[k] == (if k < m then t[k] else t[k + 1])
  {
  }

  /** Moving the first maximum of `rest` to the end of `top` keeps the selection invariants. */
  lemma SelectStep(top: seq<Tally>, rest: seq<Tally>)
    requires rest != [] && NonIncreasing(top) && Dominates(top, rest)
    ensures NonIncreasing(top + [rest[FirstMax(rest)]])
    ensures Dominates(top + [rest[FirstMax(rest)]], RemoveAt(rest, FirstMax(rest)))
  {
    var m := FirstMax(rest);
    var top' := top + [rest[m]];
    var rest' := RemoveAt(rest, m);
    forall j, k | 0 <= j < k < |top'| ensures top'[j].count >= top'[k].count {
      if k == |top| {
        assert top'[j] == top[j];
      }
    }
    forall j, k | 0 <= j < |top'| && 0 <= k < |rest'| ensures rest'[k].count <= top'[j].count {
      RemoveAtKeepsOthers(rest, m, k);
      if j == |top| {
        assert top'[j] == rest[m];
      } else {
        assert top'[j] == top[j];
      }
    }
  }

  lemma MultisetSplit(top: seq<Tally>, rest: seq<Tally>, t: seq<Tally>)
    requires rest != [] && multiset(top) + multiset(rest) == multiset(t)
    ensures multiset(top + [rest[FirstMax(rest)]]) + multiset(RemoveAt(rest, FirstMax(rest))) == multiset(t)
  {
    RemoveAtMultiset(rest, FirstMax(rest));
  }

  /** An entry of `t` that is not in `top` is in `rest`. */
  lemma LeftOverIsInRest(top: seq<Tally>, rest: seq<Tally>, t: seq<Tally>, e: Tally)
    requires multiset(top) + multiset(rest) == multiset(t)
    requires e in t && e !in top
    ensures e in rest
  {
    assert e in multiset(t);
    assert e !in multiset(top);
  }

  /** Once selection stops, every entry never taken counts no more than every entry taken. */
  lemma LeftOversCountLess(top: seq<Tally>, rest: seq<Tally>, t: seq<Tally>)
    requires multiset(top) + multiset(rest) == multiset(t)
    requires Dominates(top, rest)
    ensures forall e :: e in t && e !in top ==> forall k :: 0 <= k < |top| ==> e.count <= top[k].count
  {
    forall e | e in t && e !in top ensures forall k :: 0 <= k < |top| ==> e.count <= top[k].count {
      LeftOverIsInRest(top, rest, t, e);
      var i :| 0 <= i < |rest| && rest[i] == e;
    }
  }

  // ---- tie order: which positions of `t` are still in `rest` ----

  /** `rest` holds the entries of `t` at the positions `idx`, none of them taken yet. */
  ghost predicate Waiting(t: seq<Tally>, top: seq<Tally>, rest: seq<Tally>, idx: seq<nat>) {
    && |idx| == |rest|
    && (forall a :: 0 <= a < |idx| ==> idx[a] < |t| && rest[a] == t[idx[a]] && t[idx[a]] !in top)
    && (forall a, b :: 0 <= a < b < |idx| ==> idx[a] < idx[b])
  }

  /** A position that is not waiting has been taken. */
  ghost predicate Taken(t: seq<Tally>, top: seq<Tally>, idx: seq<nat>) {
    forall i :: 0 <= i < |t| && i !in idx ==> t[i] in top
  }

  /** A position still waiting before a taken one counts strictly less than it. */
  ghost predicate TiesBroken(t: seq<Tally>, rest: seq<Tally>, idx: seq<nat>)
    requires |idx| == |rest|
  {
    forall a, j :: 0 <= a < |idx| && idx[a] < j < |t| && j !in idx ==> rest[a].count < t[j].count
  }

  ghost predicate Tracks(t: seq<Tally>, top: seq<Tally>, rest: seq<Tally>, idx: seq<nat>) {
    Waiting(t, top, rest, idx) && Taken(t, top, idx) && TiesBroken(t, rest, idx)
  }

  lemma TracksStart(t: seq<Tally>)
    ensures Tracks(t, [], t, seq(|t|, i => i))
  {
    var idx := seq(|t|, i => i);
    forall i | 0 <= i < |t| ensures i in idx {
      assert idx[i] == i;
    }
  }

  function Drop(idx: seq<nat>, m: nat): (r: seq<nat>)
    requires m < |idx|
    ensures |r| == |idx| - 1
    ensures forall a :: 0 <= a < |r| ==> r[a] == (if a < m then idx[a] else idx[a + 1])
  {
    idx[..m] + idx[m + 1..]
  }

  /** A position other than the `m`-th stays waiting after the `m`-th is dropped. */
  lemma StillWaiting(idx: seq<nat>, m: nat, j: nat)
    requires m < |idx| && j in idx && j != idx[m]
    ensures j in Drop(idx, m)
  {
    var c :| 0 <= c < |idx| && idx[c] == j;
    assert Drop(idx, m)[if c < m then c else c - 1] == j;
  }

  lemma WaitingStep(t: seq<Tally>, top: seq<Tally>, rest: seq<Tally>, idx: seq<nat>, m: nat)
    requires DistinctPatterns(t) && m < |rest| && Waiting(t, top, rest, idx)
    ensures Waiting(t, top + [rest[m]], RemoveAt(rest, m), Drop(idx, m))
  {
    var idx' := Drop(idx, m);
    forall a | 0 <= a < |idx'|
      ensures idx'[a] < |t| && RemoveAt(rest, m)[a] == t[idx'[a]] && t[idx'[a]] !in top + [rest[m]]
    {
      var b := if a < m then a else a + 1;
      RemoveAtKeepsOthers(rest, m, a);
      assert idx[b] != idx[m];
      assert t[idx[b]].pattern != t[idx[m]].pattern;
    }
  }

  lemma TakenStep(t: seq<Tally>, top: seq<Tally>, rest: seq<Tally>, idx: seq<nat>, m: nat)
    requires m < |rest| && Waiting(t, top, rest, idx) && Taken(t, top, idx)
    ensures Taken(t, top + [rest[m]], Drop(idx, m))
  {
    forall i | 0 <= i < |t| && i !in Drop(idx, m)
      ensures t[i] in top + [rest[m]]
    {
      if i != idx[m] && i in idx {
        StillWaiting(idx, m, i);
      }
    }
  }

  lemma TiesBrokenStep(t: seq<Tally>, top: seq<Tally>, rest: seq<Tally>, idx: seq<nat>)
    requires rest != [] && Waiting(t, top, rest, idx) && TiesBroken(t, rest, idx)
    ensures TiesBroken(t, RemoveAt(rest, FirstMax(rest)), Drop(idx, FirstMax(rest)))
  {
    var m := FirstMax(rest);
    var idx' := Drop(idx, m);
    forall a, j | 0 <= a < |idx'| && idx'[a] < j < |t| && j !in idx'
      ensures RemoveAt(rest, m)[a].count < t[j].count
    {
      RemoveAtKeepsOthers(rest, m, a);
      var b := if a < m then a else a + 1;
      if j == idx[m] {
        assert b < m;
      } else if j in idx {
        StillWaiting(idx, m, j);
      }
    }
  }

  /** One selection step keeps the positions tracked. */
  lemma TracksStep(t: seq<Tally>, top: seq<Tally>, rest: seq<Tally>, idx: seq<nat>)
    requires DistinctPatterns(t) && rest != [] && Tracks(t, top, rest, idx)
    ensures Tracks(t, top + [rest[FirstMax(rest)]], RemoveAt(rest, FirstMax(rest)), Drop(idx, FirstMax(rest)))
  {
    var m := FirstMax(rest);
    WaitingStep(t, top, rest, idx, m);
    TakenStep(t, top, rest, idx, m);
    TiesBrokenStep(t, top, rest, idx);
  }

  /** An entry left out never ties with one taken after it in `t`. */
  lemma TracksTies(t: seq<Tally>, top: seq<Tally>, rest: seq<Tally>, idx: seq<nat>)
    requires Tracks(t, top, rest, idx)
    ensures forall i, j :: 0 <= i < j < |t| && t[i] !in top && t[j] in top ==> t[i].count < t[j].count
  {
    forall i, j | 0 <= i < j < |t| && t[i] !in top && t[j] in top
      ensures t[i].count < t[j].count
    {
      var a :| 0 <= a < |idx| && idx[a] == i;
      assert forall c :: 0 <= c < |idx| ==> idx[c] != j;
    }
  }

  /**
   `Counter.most_common(n)`: the `n` largest counts in non-increasing order,
   taken by repeatedly removing the first maximum. Every entry left out
   counts no more than every entry taken, and with at most `n` entries none
   is left out.
   */
  method MostCommon(t: seq<Tally>, n: nat) returns (top: seq<Tally>)
    ensures |top| == Min(n, |t|)
    ensures multiset(top) <= multiset(t)
    ensures NonIncreasing(top)
    ensures forall e :: e in t && e !in top ==> forall k :: 0 <= k < |top| ==> e.count <= top[k].count
    ensures |t| <= n ==> multiset(top) == multiset(t)
    ensures DistinctPatterns(t) ==>
              forall i, j :: 0 <= i < j < |t| && t[i] !in top && t[j] in top ==> t[i].count < t[j].count
  {
    top := [];
    var rest := t;
    ghost var idx: seq<nat> := seq(|t|, i => i);
    TracksStart(t);
    while |top| < n && rest != []
      invariant |top| <= n && |top| + |rest| == |t|
      invariant multiset(top) + multiset(rest) == multiset(t)
      invariant NonIncreasing(top) && Dominates(top, rest)
      invariant |idx| == |rest|
      invariant DistinctPatterns(t) ==> Tracks(t, top, rest, idx)
      decreases |rest|
    {
      var m := FirstMax(rest);
      SelectStep(top, rest);
      MultisetSplit(top, rest, t);
      if DistinctPatterns(t) {
        TracksStep(t, top, rest, idx);
      }
      top := top + [rest[m]];
      rest := RemoveAt(rest, m);
      idx := Drop(idx, m);
    }
    if DistinctPatterns(t) {
      TracksTies(t, top, rest, idx);
    }
    LeftOversCountLess(top, rest, t);
  }

  /** Lines 71-72: of the most common entries, those seen more than twice, in order. */
  function Frequent(top: seq<Tally>): (shown: seq<Tally>)
    ensures |shown| <= |top|
  {
    if top == [] then []
    else (if top[0].count > RepeatThreshold then [top[0]] else []) + Frequent(top[1..])
  }

  /** The filter never repeats an entry: what it shows is a sub-multiset of `top`. */
  lemma {:induction false} FrequentSubMultiset(top: seq<Tally>)
    ensures multiset(Frequent(top)) <= multiset(top)
  {
    if top != [] {
      FrequentSubMultiset(top[1..]);
      assert top == [top[0]] + top[1..];
    }
  }

  /** Only entries of `top` above the threshold are shown. */
  lemma {:induction false} FrequentSound(top: seq<Tally>, x: Tally)
    ensures x in Frequent(top) ==> x in top && x.count > RepeatThreshold
  {
    if top != [] {
      FrequentSound(top[1..], x);
      if x in Frequent(top) && x != top[0] {
        assert x in Frequent(top[1..]);
        assert x in top[1..];
      }
    }
  }

  /** Every entry of `top` above the threshold is shown. */
  lemma {:induction false} FrequentComplete(top: seq<Tally>, x: Tally)
    ensures x in top && x.count > RepeatThreshold ==> x in Frequent(top)
  {
    if top != [] {
      FrequentComplete(top[1..], x);
      if x in top && x != top[0] {
        assert top == [top[0]] + top[1..];
        assert x in top[1..];
      }
    }
  }

  /** When every entry is above the threshold, the filter keeps the list whole. */
  lemma {:induction false} FrequentKeepsAll(top: seq<Tally>)
    ensures (forall k :: 0 <= k < |top| ==> top[k].count > RepeatThreshold) ==> Frequent(top) == top
  {
    if top != [] && forall k :: 0 <= k < |top| ==> top[k].count > RepeatThreshold {
      assert forall k :: 0 <= k < |top[1..]| ==> top[1..][k] == top[k + 1];
      FrequentKeepsAll(top[1..]);
      assert top == [top[0]] + top[1..];
    }
  }

  /**
   The patterns printed for the data, lines 61-74: each reported chunk with
   its number of occurrences, all above the threshold; a chunk that repeats
   but is not reported was crowded out of a full report by chunks that occur
   at least as often.
   */
  method RepeatedPatterns(data: Bytes) returns (shown: seq<Tally>)
    ensures |shown| <= ReportTop
    ensures multiset(shown) <= multiset(Count(Chunks(data)))
    ensures forall k :: 0 <= k < |shown| ==> shown[k] in Count(Chunks(data)) && shown[k].count > RepeatThreshold
                                             && shown[k].count == multiset(Chunks(data))[shown[k].pattern]
    ensures forall e :: e in Count(Chunks(data)) && e.count > RepeatThreshold && e !in shown ==>
              |shown| == ReportTop && forall k :: 0 <= k < |shown| ==> e.count <= shown[k].count
    ensures forall i, j :: 0 <= i < j < |Count(Chunks(data))| && Count(Chunks(data))[i].count > RepeatThreshold
                           && Count(Chunks(data))[i] !in shown && Count(Chunks(data))[j] in shown
                           ==> Count(Chunks(data))[i].count < Count(Chunks(data))[j].count
  {
    var chunks := Chunks(data);
    var counter := Count(chunks);
    var top := MostCommon(counter, ReportTop);
    shown := Frequent(top);
    FrequentSubMultiset(top);
    ShownAreCounted(chunks, top);
    ShownCrowdOut(counter, top);
    assert DistinctPatterns(counter);
    ReportKeepsTieOrder(counter, top);
  }

  /** Every entry the filter keeps from a selection of the counter is a counted, repeated chunk. */
  lemma ShownAreCounted(chunks: seq<Bytes>, top: seq<Tally>)
    requires multiset(top) <= multiset(Count(chunks))
    ensures forall k :: 0 <= k < |Frequent(top)| ==>
              Frequent(top)[k] in Count(chunks) && Frequent(top)[k].count > RepeatThreshold
              && Frequent(top)[k].count == multiset(chunks)[Frequent(top)[k].pattern]
  {
    var counter, shown := Count(chunks), Frequent(top);
    forall k | 0 <= k < |shown|
      ensures shown[k] in counter && shown[k].count > RepeatThreshold && shown[k].count == multiset(chunks)[shown[k].pattern]
    {
      FrequentSound(top, shown[k]);
      assert shown[k] in multiset(top);
      assert shown[k] in multiset(counter);
      CountedEntry(counter, chunks, shown[k]);
    }
  }

  /** A repeated entry the filter leaves out was crowded out of a full report by entries at least as frequent. */
  lemma ShownCrowdOut(counter: seq<Tally>, top: seq<Tally>)
    requires |top| == Min(ReportTop, |counter|)
    requires forall x :: x in counter && x !in top ==> forall k :: 0 <= k < |top| ==> x.count <= top[k].count
    requires |counter| <= ReportTop ==> multiset(top) == multiset(counter)
    ensures forall e :: e in counter && e.count > RepeatThreshold && e !in Frequent(top) ==>
              |Frequent(top)| == ReportTop && forall k :: 0 <= k < |Frequent(top)| ==> e.count <= Frequent(top)[k].count
  {
    var shown := Frequent(top);
    forall e | e in counter && e.count > RepeatThreshold && e !in shown
      ensures |shown| == ReportTop && forall k :: 0 <= k < |shown| ==> e.count <= shown[k].count
    {
      FrequentComplete(top, e);
      FrequentKeepsAll(top);
      FullReport(counter, top, shown, e);
    }
  }

  /** Filtering the top list keeps its tie order: a repeated entry left out never ties with a later one shown. */
  lemma ReportKeepsTieOrder(t: seq<Tally>, top: seq<Tally>)
    requires forall i, j :: 0 <= i < j < |t| && t[i] !in top && t[j] in top ==> t[i].count < t[j].count
    ensures forall i, j :: 0 <= i < j < |t| && t[i].count > RepeatThreshold && t[i] !in Frequent(top) && t[j] in Frequent(top)
                           ==> t[i].count < t[j].count
  {
    forall i, j | 0 <= i < j < |t| && t[i].count > RepeatThreshold && t[i] !in Frequent(top) && t[j] in Frequent(top)
      ensures t[i].count < t[j].count
    {
      FrequentComplete(top, t[i]);
      FrequentSound(top, t[j]);
    }
  }

  lemma InSameMultiset(a: seq<Tally>, b: seq<Tally>, e: Tally)
    ensures multiset(a) == multiset(b) && e in b ==> e in a
  {
    if multiset(a) == multiset(b) && e in b {
      assert e in multiset(b);
    }
  }

  lemma FullReport(counter: seq<Tally>, top: seq<Tally>, shown: seq<Tally>, e: Tally)
    requires |top| == Min(ReportTop, |counter|)
    requires forall x :: x in counter && x !in top ==> forall k :: 0 <= k < |top| ==> x.count <= top[k].count
    requires |counter| <= ReportTop ==> multiset(top) == multiset(counter)
    requires e in top && e.count > RepeatThreshold ==> e in shown
    requires (forall k :: 0 <= k < |top| ==> top[k].count > RepeatThreshold) ==> shown == top
    requires e in counter && e.count > RepeatThreshold && e !in shown
    ensures |shown| == ReportTop && forall k :: 0 <= k < |shown| ==> e.count <= shown[k].count
  {
    InSameMultiset(top, counter, e);
    assert forall k :: 0 <= k < |top| ==> e.count <= top[k].count;
  }
}

=== FILE: Decimal.dfy ===
/** Decimal rendering and reading of natural numbers (`str(n)` and `int(digits)`). */
module Decimal {

  predicate IsDigitChar(c: char) {
    '0' <= c <= '9'
  }

  predicate AllDigits(s: string) {
    forall k :: 0 <= k < |s| ==> IsDigitChar(s[k])
  }

  function DigitChar(d: nat): (c: char)
    requires d < 10
    ensures IsDigitChar(c)
  {
    ('0' as int + d) as char
  }

  function DigitValue(c: char): nat
    requires IsDigitChar(c)
  {
    c as int - '0' as int
  }

  /** `str(n)` for a natural number: canonical, without leading zeros. */
  function ToDecimal(n: nat): (s: string)
    ensures |s| >= 1 && AllDigits(s)
    ensures s[0] == '0' ==> n == 0
    decreases n
  {
    if n < 10 then [DigitChar(n)] else ToDecimal(n / 10) + [DigitChar(n % 10)]
  }

  function Pow10(k: nat): nat {
    if k == 0 then 1 else 10 * Pow10(k - 1)
  }

  /** `int(s)` on a string of ASCII digits (leading zeros allowed); `k` digits stay below `10^k`. */
  function Value(s: string): (v: nat)
    requires AllDigits(s)
    ensures v < Pow10(|s|)
  {
    if s == [] then 0 else Value(s[..|s| - 1]) * 10 + DigitValue(s[|s| - 1])
  }

  /** Reading back a rendered number gives the number. */
  lemma {:induction false} ValueOfToDecimal(n: nat)
    ensures Value(ToDecimal(n)) == n
    decreases n
  {
    if n >= 10 {
      var s := ToDecimal(n);
      assert s[..|s| - 1] == ToDecimal(n / 10);
      ValueOfToDecimal(n / 10);
    }
  }

  /** Leading zeros do not change the value. */
  lemma {:induction false} LeadingZeroIgnored(s: string)
    requires AllDigits(s)
    ensures Value("0" + s) == Value(s)
    decreases |s|
  {
    if s != [] {
      var t := "0" + s;
      assert t[..|t| - 1] == "0" + s[..|s| - 1];
      LeadingZeroIgnored(s[..|s| - 1]);
    }
  }
}

=== FILE: Decoder.dfy ===
/**
 The unwrapping stage of `analyze_edm_file` (analyser.py): sniff for base64,
 decode it with a fallback to the original bytes, then probe zlib with a fixed
 sequence of window-bits settings. The base64 and zlib libraries are opaque:
 they enter as function-valued parameters that either produce bytes or fail.
 */
module Decoder {
  import opened Wrappers
  import opened ByteClasses

  /** `base64.b64decode`: `None` stands for a raised `binascii.Error`. */
  type Base64Oracle = Bytes -> Option<Bytes>

  /** The `wbits` argument of `zlib.decompress`; `Default` is the call without it. */
  datatype WBits = Default | Zlib15 | Gzip31 | RawMinus15

  /** `zlib.decompress(data, wbits)`: `None` stands for a raised `zlib.error`. */
  type InflateOracle = (WBits, Bytes) -> Option<Bytes>

  /** The tag that marks base64 of a zlib stream with header 78 DA: `b'eNr'`. */
  const ZlibBase64Tag: Bytes := [101, 78, 114]

  /** How many leading bytes the alphabet test looks at. */
  const SniffWindow: nat := 100

  /** Membership in `b'ABC…XYZabc…xyz0123456789+/='`. */
  predicate IsBase64Char(b: byte) {
    (65 <= b <= 90) || (97 <= b <= 122) || (48 <= b <= 57) || b == 43 || b == 47 || b == 61
  }

  /** The sniff of analyser.py line 22. */
  predicate LooksBase64(data: Bytes) {
    StartsWith(data, ZlibBase64Tag)
    || forall k :: 0 <= k < Min(|data|, SniffWindow) ==> IsBase64Char(data[k])
  }

  /** The empty file counts as base64 (`all` of nothing is true). */
  lemma EmptyLooksBase64()
    ensures LooksBase64([])
  {
  }

  /** Everything a base64 encoder emits is recognised. */
  lemma EncoderOutputLooksBase64(data: Bytes)
    requires forall k :: 0 <= k < |data| ==> IsBase64Char(data[k])
    ensures LooksBase64(data)
  {
  }

  /** A byte outside the alphabet among the first 100 defeats the sniff unless the tag is present. */
  lemma ForeignByteDefeatsSniff(data: Bytes, k: nat)
    requires k < |data| && k < SniffWindow && !IsBase64Char(data[k])
    ensures LooksBase64(data) <==> StartsWith(data, ZlibBase64Tag)
  {
  }

  /** Only the first 100 bytes are consulted: appending to a long enough prefix changes nothing. */
  lemma SniffReadsOnlyTheHeader(data: Bytes, tail: Bytes)
    requires |data| >= SniffWindow
    ensures LooksBase64(data + tail) == LooksBase64(data)
  {
    assert (data + tail)[..|ZlibBase64Tag|] == data[..|ZlibBase64Tag|];
    assert forall k :: 0 <= k < SniffWindow ==> (data + tail)[k] == data[k];
  }

  /** The bytes handed to decompression (analyser.py lines 22-43). */
  function Unwrap(data: Bytes, b64: Base64Oracle): (payload: Bytes)
    ensures !LooksBase64(data) ==> payload == data
    ensures LooksBase64(data) && b64(data).None? ==> payload == data
    ensures LooksBase64(data) && b64(data).Some? ==> payload == b64(data).value
  {
    if LooksBase64(data) then
      match b64(data)
      case Some(decoded) => decoded
      case None => data
    else
      data
  }

  /** A failed base64 decode is never fatal: the payload is either the decoded bytes or the original. */
  lemma UnwrapNeverLoses(data: Bytes, b64: Base64Oracle)
    ensures Unwrap(data, b64) == data || b64(data) == Some(Unwrap(data, b64))
  {
  }

  /** The order of attempts: the plain call, then the `for wbits in [15, 31, -15]` loop. */
  const Attempts: seq<WBits> := [Default, Zlib15, Gzip31, RawMinus15]

  /** The first attempt in `tries` that succeeds, as the try/except chain does. */
  function FirstSuccess(tries: seq<WBits>, payload: Bytes, inflate: InflateOracle): (r: Option<Bytes>)
    ensures r.None? <==> forall k :: 0 <= k < |tries| ==> inflate(tries[k], payload).None?
    ensures r.Some? ==> exists k :: 0 <= k < |tries| && inflate(tries[k], payload) == r
                              && forall j :: 0 <= j < k ==> inflate(tries[j], payload).None?
  {
    if tries == [] then None
    else
      match inflate(tries[0], payload)
      case Some(out) => Some(out)
      case None =>
        var rest := FirstSuccess(tries[1..], payload, inflate);
        assert forall k :: 1 <= k < |tries| ==> tries[k] == tries[1..][k - 1];
        rest
  }

  /** Decompression of analyser.py lines 45-66; `None` is the "All decompression attempts failed" exit. */
  function Decompress(payload: Bytes, inflate: InflateOracle): (r: Option<Bytes>)
    ensures r.None? <==> forall w :: w in Attempts ==> inflate(w, payload).None?
    ensures r.Some? ==> exists w :: w in Attempts && inflate(w, payload) == r
  {
    FirstSuccess(Attempts, payload, inflate)
  }

  /** The result is the first success in the order default, 15, 31, -15. */
  lemma DecompressOrder(payload: Bytes, inflate: InflateOracle)
    ensures inflate(Default, payload).Some? ==> Decompress(payload, inflate) == inflate(Default, payload)
    ensures inflate(Default, payload).None? && inflate(Zlib15, payload).Some?
            ==> Decompress(payload, inflate) == inflate(Zlib15, payload)
    ensures inflate(Default, payload).None? && inflate(Zlib15, payload).None? && inflate(Gzip31, payload).Some?
            ==> Decompress(payload, inflate) == inflate(Gzip31, payload)
    ensures inflate(Default, payload).None? && inflate(Zlib15, payload).None? && inflate(Gzip31, payload).None?
            ==> Decompress(payload, inflate) == inflate(RawMinus15, payload)
  {
    var tail1: seq<WBits> := [Zlib15, Gzip31, RawMinus15];
    var tail2: seq<WBits> := [Gzip31, RawMinus15];
    var tail3: seq<WBits> := [RawMinus15];
    assert Attempts[1..] == tail1 && tail1[1..] == tail2 && tail2[1..] == tail3 && tail3[1..] == [];
    if inflate(Default, payload).None? {
      assert Decompress(payload, inflate) == FirstSuccess(tail1, payload, inflate);
      if inflate(Zlib15, payload).None? {
        assert FirstSuccess(tail1, payload, inflate) == FirstSuccess(tail2, payload, inflate);
        if inflate(Gzip31, payload).None? {
          assert FirstSuccess(tail2, payload, inflate) == FirstSuccess(tail3, payload, inflate);
        }
      }
    }
  }

  /**
   zlib's default `wbits` is 15, so a library that answers both calls alike
   makes the first retry of the loop pointless: it can succeed only when the
   plain call already did.
   */
  lemma FifteenRetryIsRedundant(payload: Bytes, inflate: InflateOracle)
    requires inflate(Default, payload) == inflate(Zlib15, payload)
    ensures Decompress(payload, inflate) == FirstSuccess([Default, Gzip31, RawMinus15], payload, inflate)
  {
    var shortened: seq<WBits> := [Default, Gzip31, RawMinus15];
    var tail2: seq<WBits> := [Gzip31, RawMinus15];
    var tail3: seq<WBits> := [RawMinus15];
    assert shortened[1..] == tail2 && tail2[1..] == tail3 && tail3[1..] == [];
    DecompressOrder(payload, inflate);
    if inflate(Default, payload).None? {
      assert FirstSuccess(shortened, payload, inflate) == FirstSuccess(tail2, payload, inflate);
      if inflate(Gzip31, payload).None? {
        assert FirstSuccess(tail2, payload, inflate) == FirstSuccess(tail3, payload, inflate);
      }
    }
  }
}

=== FILE: Header.dfy ===
/**
 The well-identity lookups of `parse_wellcat_data` (wellcat_parser.py lines
 17-28): `re.search(b'StressData.([0-9.]+)', data[:100])` and
 `re.search(b'Design #([0-9]+) ([A-Z]+)', data)`, each written out as a
 leftmost search with greedy runs.
 */
module Header {
  import opened Wrappers
  import opened ByteClasses
  import Decimal

  /** `header_data = data[:100]`. */
  const HeaderSize: nat := 100
  /** `b'StressData'`. */
  const StressDataTag: Bytes := [83, 116, 114, 101, 115, 115, 68, 97, 116, 97]
  /** `b'Design #'`. */
  const DesignTag: Bytes := [68, 101, 115, 105, 103, 110, 32, 35]
  const Newline: byte := 10
  const Space: byte := 32
  const Dot: byte := 46

  /** Regex class `[0-9.]`. */
  predicate IsVersionByte(b: byte) {
    IsDigit(b) || b == Dot
  }

  predicate HasAt(d: Bytes, p: nat, tag: Bytes) {
    p + |tag| <= |d| && d[p .. p + |tag|] == tag
  }

  predicate AllIn(d: Bytes, lo: nat, hi: nat, cls: byte -> bool) {
    lo <= hi <= |d| && forall k :: lo <= k < hi ==> cls(d[k])
  }

  /** The end of the greedy run of `cls` bytes starting at `i`. */
  function RunEnd(d: Bytes, i: nat, cls: byte -> bool): (e: nat)
    requires i <= |d|
    ensures i <= e <= |d|
    ensures AllIn(d, i, e, cls)
    ensures e == |d| || !cls(d[e])
    decreases |d| - i
  {
    if i < |d| && cls(d[i]) then RunEnd(d, i + 1, cls) else i
  }

  /** A run is determined by its end: all `cls` bytes up to it, and a non-`cls` byte or the end after. */
  lemma {:induction false} RunEndUnique(d: Bytes, i: nat, cls: byte -> bool, e: nat)
    requires i <= e && AllIn(d, i, e, cls) && (e == |d| || !cls(d[e]))
    ensures RunEnd(d, i, cls) == e
    decreases e - i
  {
    if i < e {
      assert cls(d[i]);
      RunEndUnique(d, i + 1, cls, e);
    }
  }

  // ---- version ----

  /** Where the version digits start for a match at `p`: after the tag and the `.` wildcard. */
  function VersionStart(p: nat): nat {
    p + |StressDataTag| + 1
  }

  /** `StressData.([0-9.]+)` matches at `p`: `.` is any byte but a newline. */
  predicate VersionMatchAt(h: Bytes, p: nat) {
    && HasAt(h, p, StressDataTag)
    && VersionStart(p) < |h|
    && h[p + |StressDataTag|] != Newline
    && IsVersionByte(h[VersionStart(p)])
  }

  /** The leftmost match at or after `p`. */
  function SearchVersion(h: Bytes, p: nat): (r: Option<nat>)
    ensures r.Some? ==> p <= r.value && VersionMatchAt(h, r.value)
                        && forall q :: p <= q < r.value ==> !VersionMatchAt(h, q)
    ensures r.None? ==> forall q :: p <= q ==> !VersionMatchAt(h, q)
    decreases |h| - p
  {
    if p >= |h| then None
    else if VersionMatchAt(h, p) then Some(p)
    else SearchVersion(h, p + 1)
  }

  /** `version_match.group(1).decode()`, or `None` when the header does not match. */
  function Version(data: Bytes): (r: Option<string>)
    ensures r.None? <==> forall p :: !VersionMatchAt(Take(data, HeaderSize), p)
    ensures r.Some? ==> |r.value| >= 1 && forall k :: 0 <= k < |r.value| ==> r.value[k] in "0123456789."
  {
    var h := Take(data, HeaderSize);
    match SearchVersion(h, 0)
    case None => None
    case Some(p) =>
      var e := RunEnd(h, VersionStart(p), IsVersionByte);
      VersionRunText(h, VersionStart(p), e);
      Some(AsciiDecode(h[VersionStart(p) .. e]))
  }

  /** A run of `[0-9.]` bytes decodes to digits and dots. */
  lemma VersionRunText(h: Bytes, i: nat, e: nat)
    requires AllIn(h, i, e, IsVersionByte)
    ensures forall k :: 0 <= k < e - i ==> AsciiDecode(h[i .. e])[k] in "0123456789."
  {
    var v := AsciiDecode(h[i .. e]);
    forall k | 0 <= k < e - i
      ensures v[k] in "0123456789."
    {
      var b := h[i .. e][k];
      assert IsVersionByte(b) && v[k] as int == b as int;
      if b == Dot {
        assert v[k] == "0123456789."[10];
      } else {
        assert v[k] == "0123456789."[b as int - 48];
      }
    }
  }

  /** The version is the maximal `[0-9.]` run after the leftmost match, clipped to the header. */
  lemma VersionIsGreedyRun(data: Bytes)
    requires Version(data).Some?
    ensures var h := Take(data, HeaderSize);
            var p := SearchVersion(h, 0).value;
            var e := VersionStart(p) + |Version(data).value|;
            && e <= |h| && e <= HeaderSize
            && (e == |h| || !IsVersionByte(h[e]))
            && (forall k :: VersionStart(p) <= k < e ==> IsVersionByte(h[k]))
            && forall k :: 0 <= k < |Version(data).value| ==> Version(data).value[k] as int == h[VersionStart(p) + k] as int
  {
  }

  /** Only the first 100 bytes matter. */
  lemma VersionReadsOnlyTheHeader(data: Bytes, tail: Bytes)
    requires |data| >= HeaderSize
    ensures Version(data + tail) == Version(data)
  {
    assert Take(data + tail, HeaderSize) == Take(data, HeaderSize);
  }

  /** `b"StressData.2.1"` yields version "2.1". */
  lemma VersionExample()
    ensures Version([83, 116, 114, 101, 115, 115, 68, 97, 116, 97, 46, 50, 46, 49]) == Some("2.1")
  {
    var d: Bytes := [83, 116, 114, 101, 115, 115, 68, 97, 116, 97, 46, 50, 46, 49];
    assert Take(d, HeaderSize) == d;
    assert d[0 .. 10] == StressDataTag;
    assert VersionMatchAt(d, 0);
    RunEndUnique(d, 11, IsVersionByte, 14);
    assert d[11 .. 14] == [50, 46, 49];
    var v := AsciiDecode(d[11 .. 14]);
    assert v[0] == '2' && v[1] == '.' && v[2] == '1';
    assert v == "2.1";
    assert SearchVersion(d, 0) == Some(0);
    assert Version(d) == Some(v);
  }

  /** The wildcard is not a literal dot, but it never matches a newline. */
  lemma VersionWildcard(data: Bytes, p: nat)
    requires HasAt(data, p, StressDataTag) && VersionStart(p) < |data| && IsVersionByte(data[VersionStart(p)])
    ensures VersionMatchAt(data, p) <==> data[p + |StressDataTag|] != Newline
  {
  }

  // ---- design number and well name ----

  function DigitsStart(p: nat): nat {
    p + |DesignTag|
  }

  /**
   `Design #([0-9]+) ([A-Z]+)` matches at `p`. Greedy digits followed by a
   space: backing off to a shorter digit run puts a digit, not a space, next,
   so the maximal run is the only candidate (see `DesignBacktrackingAgrees`).
   */
  predicate DesignMatchAt(d: Bytes, p: nat) {
    && HasAt(d, p, DesignTag)
    && var e := RunEnd(d, DigitsStart(p), IsDigit);
       && e > DigitsStart(p)
       && e + 1 < |d|
       && d[e] == Space
       && IsUpper(d[e + 1])
  }

  /** The regex's own reading, with any digit run the engine may back off to. */
  ghost predicate DesignRegexAt(d: Bytes, p: nat) {
    && HasAt(d, p, DesignTag)
    && exists e :: DigitsStart(p) < e && e + 1 < |d| && AllIn(d, DigitsStart(p), e, IsDigit)
                   && d[e] == Space && IsUpper(d[e + 1])
  }

  lemma DesignBacktrackingAgrees(d: Bytes, p: nat)
    ensures DesignRegexAt(d, p) <==> DesignMatchAt(d, p)
  {
    if DesignRegexAt(d, p) {
      var e :| DigitsStart(p) < e && e + 1 < |d| && AllIn(d, DigitsStart(p), e, IsDigit)
               && d[e] == Space && IsUpper(d[e + 1]);
      RunEndUnique(d, DigitsStart(p), IsDigit, e);
    }
    if DesignMatchAt(d, p) {
      var g := RunEnd(d, DigitsStart(p), IsDigit);
      assert AllIn(d, DigitsStart(p), g, IsDigit);
    }
  }

  function SearchDesign(d: Bytes, p: nat): (r: Option<nat>)
    ensures r.Some? ==> p <= r.value && DesignMatchAt(d, r.value)
                        && forall q :: p <= q < r.value ==> !DesignMatchAt(d, q)
    ensures r.None? ==> forall q :: p <= q ==> !DesignMatchAt(d, q)
    decreases |d| - p
  {
    if p >= |d| then None
    else if DesignMatchAt(d, p) then Some(p)
    else SearchDesign(d, p + 1)
  }

  datatype Design = Design(number: nat, name: string)

  /** `int(group(1))` and `group(2).decode()` of the leftmost match anywhere in the data. */
  function FindDesign(data: Bytes): (r: Option<Design>)
    ensures r.None? <==> forall p :: !DesignMatchAt(data, p)
    ensures r.Some? ==> |r.value.name| >= 1 && forall k :: 0 <= k < |r.value.name| ==> 'A' <= r.value.name[k] <= 'Z'
    ensures r.Some? ==> exists p :: DesignMatchAt(data, p) && (forall q :: q < p ==> !DesignMatchAt(data, q))
                                    && r.value == DesignAt(data, p)
  {
    match SearchDesign(data, 0)
    case None => None
    case Some(p) => Some(DesignAt(data, p))
  }

  /**
   The two groups of a match at `p`: the value of the digit run after the tag,
   and the maximal run of capitals after the space that follows it.
   */
  function DesignAt(data: Bytes, p: nat): (r: Design)
    requires DesignMatchAt(data, p)
    ensures |r.name| >= 1 && forall k :: 0 <= k < |r.name| ==> 'A' <= r.name[k] <= 'Z'
    ensures var e := RunEnd(data, DigitsStart(p), IsDigit);
            && r.number == Decimal.Value(AsciiDecode(data[DigitsStart(p) .. e]))
            && e + 1 + |r.name| <= |data|
            && (forall k :: 0 <= k < |r.name| ==> r.name[k] as int == data[e + 1 + k] as int)
            && (e + 1 + |r.name| == |data| || !IsUpper(data[e + 1 + |r.name|]))
  {
    var e := RunEnd(data, DigitsStart(p), IsDigit);
    var f := RunEnd(data, e + 1, IsUpper);
    UpperRunText(data, e + 1, f);
    Design(Decimal.Value(AsciiDecode(data[DigitsStart(p) .. e])), AsciiDecode(data[e + 1 .. f]))
  }

  /** A run of `[A-Z]` bytes decodes to capital letters. */
  lemma UpperRunText(d: Bytes, i: nat, e: nat)
    requires AllIn(d, i, e, IsUpper)
    ensures forall k :: 0 <= k < e - i ==> 'A' <= AsciiDecode(d[i .. e])[k] <= 'Z'
  {
    var v := AsciiDecode(d[i .. e]);
    forall k | 0 <= k < e - i
      ensures 'A' <= v[k] <= 'Z'
    {
      var b := d[i .. e][k];
      assert IsUpper(b) && v[k] as int == b as int;
    }
  }

  /** `b"Design #1 MANGO"` yields design 1 of well "MANGO". */
  lemma DesignExample()
    ensures FindDesign([68, 101, 115, 105, 103, 110, 32, 35, 49, 32, 77, 65, 78, 71, 79]) == Some(Design(1, "MANGO"))
  {
    var d: Bytes := [68, 101, 115, 105, 103, 110, 32, 35, 49, 32, 77, 65, 78, 71, 79];
    assert HasAt(d, 0, DesignTag) by {
      assert d[0 .. 8] == DesignTag;
    }
    RunEndUnique(d, 8, IsDigit, 9);
    RunEndUnique(d, 10, IsUpper, 15);
    assert SearchDesign(d, 0) == Some(0);
    var digits := AsciiDecode(d[8 .. 9]);
    assert digits == "1" by {
      assert digits[0] == '1';
    }
    var name := AsciiDecode(d[10 .. 15]);
    assert name == "MANGO" by {
      assert name[0] == 'M' && name[1] == 'A' && name[2] == 'N' && name[3] == 'G' && name[4] == 'O';
    }
    assert Decimal.Value(digits) == 1 by {
      assert digits[..0] == "";
    }
    assert DesignAt(d, 0) == Design(1, "MANGO");
  }

  /** A rendered number after the tag reads back as that number. */
  lemma DesignNumberRoundTrip(n: nat, digits: Bytes, rest: Bytes)
    requires |digits| == |Decimal.ToDecimal(n)|
    requires forall k :: 0 <= k < |digits| ==> digits[k] as int == Decimal.ToDecimal(n)[k] as int
    requires |rest| >= 2 && rest[0] == Space && IsUpper(rest[1])
    ensures FindDesign(DesignTag + digits + rest).Some?
    ensures FindDesign(DesignTag + digits + rest).value.number == n
  {
    var d := DesignTag + digits + rest;
    var s := Decimal.ToDecimal(n);
    var e := 8 + |digits|;
    assert d[8 .. e] == digits;
    assert HasAt(d, 0, DesignTag) by {
      assert d[0 .. 8] == DesignTag;
    }
    assert AllIn(d, 8, e, IsDigit) by {
      forall k | 8 <= k < e ensures IsDigit(d[k]) {
        assert d[k] == digits[k - 8];
        assert Decimal.IsDigitChar(s[k - 8]);
      }
    }
    assert d[e] == Space && IsUpper(d[e + 1]) by {
      assert d[e] == rest[0] && d[e + 1] == rest[1];
    }
    RunEndUnique(d, 8, IsDigit, e);
    assert SearchDesign(d, 0) == Some(0);
    assert AsciiDecode(d[8 .. e]) == s by {
      assert AsciiDecode(digits) == s;
    }
    Decimal.ValueOfToDecimal(n);
  }
}

=== FILE: Parser.dfy ===
/**
 `parse_wellcat_data` (wellcat_parser.py lines 4-58): the `well_info` dict
 filled from the two header patterns, and the inventory list from the
 record slicer. The dict's values are either text or an integer; the
 result is a record with exactly the two keys `well_info` and `inventory`.
 */
module Parser {
  import opened Wrappers
  import opened ByteClasses
  import Header
  import Records

  const VersionKey: string := "version"
  const DesignNumberKey: string := "design_number"
  const WellNameKey: string := "well_name"

  datatype InfoValue = Text(text: string) | Number(number: nat)

  type WellInfo = map<string, InfoValue>

  /** The returned dict `{'well_info': ..., 'inventory': ...}`. */
  datatype Parsed = Parsed(wellInfo: WellInfo, inventory: seq<Records.Item>)

  /**
   `well_info`: each key is present exactly when its pattern matched, and
   there are no defaults for the keys that are absent.
   */
  function WellInfoOf(data: Bytes): (info: WellInfo)
    ensures info.Keys <= {VersionKey, DesignNumberKey, WellNameKey}
    ensures VersionKey in info <==> Header.Version(data).Some?
    ensures VersionKey in info ==> info[VersionKey] == Text(Header.Version(data).value)
    ensures DesignNumberKey in info <==> Header.FindDesign(data).Some?
    ensures WellNameKey in info <==> Header.FindDesign(data).Some?
    ensures DesignNumberKey in info ==> info[DesignNumberKey] == Number(Header.FindDesign(data).value.number)
    ensures WellNameKey in info ==> info[WellNameKey] == Text(Header.FindDesign(data).value.name)
  {
    var withVersion: WellInfo :=
      match Header.Version(data)
      case Some(v) => map[VersionKey := Text(v)]
      case None => map[];
    match Header.FindDesign(data)
    case Some(d) => withVersion[DesignNumberKey := Number(d.number)][WellNameKey := Text(d.name)]
    case None => withVersion
  }

  /** Lines 4-58, with the file contents passed in. */
  method ParseWellcatData(data: Bytes) returns (r: Parsed)
    ensures r.wellInfo == WellInfoOf(data)
    ensures r.inventory == Records.ItemsAt(data, Records.KeptOffsets(data))
  {
    var info: WellInfo := map[];
    var version := Header.Version(data);
    if version.Some? {
      info := info[VersionKey := Text(version.value)];
    }
    var design := Header.FindDesign(data);
    if design.Some? {
      info := info[DesignNumberKey := Number(design.value.number)];
      info := info[WellNameKey := Text(design.value.name)];
    }
    var items := Records.SliceRecords(data);
    r := Parsed(info, items);
  }

  /** The version, when present, is a non-empty run of digits and dots. */
  lemma VersionValueShape(data: Bytes)
    requires VersionKey in WellInfoOf(data)
    ensures WellInfoOf(data)[VersionKey].Text?
    ensures var v := WellInfoOf(data)[VersionKey].text;
            |v| > 0 && forall k :: 0 <= k < |v| ==> v[k] in "0123456789."
  {
  }
}

=== FILE: PixelGrid.dfy ===
/**
 The visualisation grid of `reverse_engineer_wellcat_format`
 (wellcat_analyzer.py lines 76-86): byte `i` goes to row `i // 512`,
 column `i % 512` of a zero-initialised image with `len // 512 + 1` rows.
 The plotting itself is not modelled.
 */
module PixelGrid {
  import opened ByteClasses

  const Width: nat := 512

  /** `len(data) // width + 1`. */
  function Height(n: nat): nat {
    n / Width + 1
  }

  datatype Pixel = Pixel(row: nat, col: nat)

  /** `row = i // width`, `col = i % width`. */
  function Place(i: nat): (px: Pixel)
    ensures px.col < Width && px.row * Width + px.col == i
  {
    Pixel(i / Width, i % Width)
  }

  /** The guard of line 85 always holds: every byte lands inside the grid. */
  lemma PlaceInsideGrid(n: nat, i: nat)
    requires i < n
    ensures Place(i).row < Height(n) && Place(i).col < Width
  {
  }

  /** The position determines the byte: reading row-major gives the offset back. */
  lemma PlaceInverse(i: nat)
    ensures Place(i).row * Width + Place(i).col == i
  {
  }

  /** No two bytes share a pixel. */
  lemma PlaceInjective(i: nat, j: nat)
    requires Place(i) == Place(j)
    ensures i == j
  {
    PlaceInverse(i);
    PlaceInverse(j);
  }

  /** The pixel at row-major position `r * 512 + c` is the one `Place` picks. */
  lemma PlaceOfRowMajor(r: nat, c: nat)
    requires c < Width
    ensures Place(r * Width + c) == Pixel(r, c)
  {
  }

  /** Lines 78-86: paint each byte into a zero image. */
  method Paint(data: Bytes) returns (img: seq<seq<byte>>)
    ensures |img| == Height(|data|)
    ensures forall r :: 0 <= r < |img| ==> |img[r]| == Width
    ensures forall r, c :: 0 <= r < |img| && 0 <= c < Width ==>
              img[r][c] == if r * Width + c < |data| then data[r * Width + c] else 0
  {
    var height := Height(|data|);
    img := seq(height, _ => seq(Width, _ => 0 as byte));
    for i := 0 to |data|
      invariant |img| == height
      invariant forall r :: 0 <= r < height ==> |img[r]| == Width
      invariant forall r, c :: 0 <= r < height && 0 <= c < Width ==>
                  img[r][c] == if r * Width + c < i then data[r * Width + c] else 0
    {
      var row := i / Width;
      var col := i % Width;
      if row < height && col < Width {
        img := img[row := img[row][col := data[i]]];
      }
    }
  }

  /** When the length is a multiple of 512 the last row stays black. */
  lemma ExactMultipleLeavesEmptyRow(data: Bytes, c: nat)
    requires |data| % Width == 0 && c < Width
    ensures (Height(|data|) - 1) * Width + c >= |data|
  {
  }
}

=== FILE: Preview.dfy ===
/**
 The byte previews printed by `analyze_edm_file` (analyser.py): the 16-byte
 hex-dump rows with their ASCII column, and the "looks like text" test that
 decides whether a text sample is shown.
 */
module Preview {
  import opened ByteClasses

  const RowWidth: nat := 16
  /** Rows of a container stream cover `min(len, 100)` (line 142). */
  const StreamDumpLimit: nat := 100
  /** Rows of raw decompressed data cover `min(len, 256)` (line 227). */
  const RawDumpLimit: nat := 256
  /** The text test looks at `data[:100]` (lines 148 and 233). */
  const TextWindow: nat := 100
  /** `{hex_values:<47}`: sixteen two-digit bytes and fifteen separating spaces. */
  const HexColumnWidth: nat := 47
  /** Stream rows print after four spaces (line 145), raw rows after two (line 230). */
  const StreamIndent: nat := 4
  const RawIndent: nat := 2

  /** One printed row: its start offset, the bytes shown in hex, and the ASCII column. */
  datatype HexRow = HexRow(offset: nat, shown: Bytes, ascii: string)

  /** `chr(b) if 32 <= b <= 126 else '.'` over a slice. */
  function AsciiColumn(bs: Bytes): (s: string)
    ensures |s| == |bs|
    ensures forall k :: 0 <= k < |bs| ==> (if IsPrintable(bs[k]) then s[k] == CharOf(bs[k]) else s[k] == '.')
  {
    seq(|bs|, k requires 0 <= k < |bs| => if IsPrintable(bs[k]) then CharOf(bs[k]) else '.')
  }

  /** The ASCII column never carries a control or non-ASCII character. */
  lemma AsciiColumnIsPrintable(bs: Bytes)
    ensures forall k :: 0 <= k < |bs| ==> 32 <= AsciiColumn(bs)[k] as int <= 126
  {
  }

  /** The row starting at `j`: `min(16, len - j)` bytes in hex and `data[j:j+16]` as ASCII. */
  function Row(data: Bytes, j: nat): (r: HexRow)
    requires j < |data|
    ensures r.offset == j
    ensures |r.shown| == |r.ascii| == Min(RowWidth, |data| - j)
    ensures forall k :: 0 <= k < |r.shown| ==> r.shown[k] == data[j + k]
  {
    var shown := data[j .. j + Min(RowWidth, |data| - j)];
    HexRow(j, shown, AsciiColumn(data[j .. Min(j + RowWidth, |data|)]))
  }

  function RowsFrom(data: Bytes, j: nat, end: nat): (rows: seq<HexRow>)
    requires end <= |data|
    ensures |rows| == if j < end then (end - j + RowWidth - 1) / RowWidth else 0
    ensures forall k :: 0 <= k < |rows| ==> rows[k] == Row(data, j + RowWidth * k)
    decreases end - j
  {
    if j >= end then []
    else
      RowCountStep(end - j);
      [Row(data, j)] + RowsFrom(data, j + RowWidth, end)
  }

  /** One more row for each further 16 bytes, and one for a final partial row. */
  lemma RowCountStep(a: nat)
    requires a > 0
    ensures (a + RowWidth - 1) / RowWidth == 1 + (if a > RowWidth then (a - RowWidth + RowWidth - 1) / RowWidth else 0)
  {
  }

  /** `for j in range(0, min(len(data), limit), 16)`: the rows printed for a dump limit. */
  function HexDump(data: Bytes, limit: nat): (rows: seq<HexRow>)
    ensures |rows| == (Min(|data|, limit) + RowWidth - 1) / RowWidth
    ensures forall k :: 0 <= k < |rows| ==> rows[k].offset == RowWidth * k
  {
    RowsFrom(data, 0, Min(|data|, limit))
  }

  /** Rows start exactly at the multiples of 16 below `min(len, limit)`. */
  lemma HexDumpRowStarts(data: Bytes, limit: nat, k: nat)
    ensures k < |HexDump(data, limit)| <==> RowWidth * k < Min(|data|, limit)
  {
    var n := Min(|data|, limit);
    RowStartsInside(k, n);
    if RowWidth * k < n {
      RowCountAbove(k, n);
    }
  }

  lemma RowCountAbove(k: nat, n: nat)
    requires RowWidth * k < n
    ensures k < (n + RowWidth - 1) / RowWidth
  {
    assert RowWidth * (k + 1) <= n + RowWidth - 1;
  }

  /**
   The row starting at `j`: `min(16, len - j)` bytes in hex, which can run past
   the limit, and the ASCII column of `data[j:j+16]`.
   */
  lemma HexDumpRowContents(data: Bytes, limit: nat, k: nat)
    requires RowWidth * k < Min(|data|, limit)
    ensures k < |HexDump(data, limit)|
    ensures var j := RowWidth * k;
            && HexDump(data, limit)[k].offset == j
            && HexDump(data, limit)[k].shown == data[j .. j + Min(RowWidth, |data| - j)]
            && HexDump(data, limit)[k].ascii == AsciiColumn(data[j .. Min(j + RowWidth, |data|)])
  {
    HexDumpRowStarts(data, limit, k);
  }

  /** All bytes shown in hex, row after row. */
  function ShownBytes(rows: seq<HexRow>): Bytes {
    if rows == [] then [] else rows[0].shown + ShownBytes(rows[1..])
  }

  lemma {:induction false} RowsFromShow(data: Bytes, j: nat, end: nat)
    requires j <= end <= |data|
    ensures ShownBytes(RowsFrom(data, j, end)) == data[j .. Min(|data|, j + RowWidth * |RowsFrom(data, j, end)|)]
    decreases end - j
  {
    var rows := RowsFrom(data, j, end);
    if j < end {
      var next := j + RowWidth;
      var rest := RowsFrom(data, next, end);
      assert rows == [Row(data, j)] + rest;
      assert rows[1..] == rest;
      assert ShownBytes(rows) == Row(data, j).shown + ShownBytes(rest);
      var hi := Min(|data|, j + RowWidth * |rows|);
      if next <= end {
        RowsFromShow(data, next, end);
        assert hi == Min(|data|, next + RowWidth * |rest|);
        SliceSplit(data, j, next, hi);
      } else {
        assert rest == [];
        assert hi == Min(|data|, next);
      }
    }
  }

  lemma SliceSplit(data: Bytes, lo: nat, mid: nat, hi: nat)
    requires lo <= mid <= hi <= |data|
    ensures data[lo .. hi] == data[lo .. mid] + data[mid .. hi]
  {
  }

  /**
   The rows show exactly the first `16 * rows` bytes, clipped to the data: the
   dump covers whole rows, so it can show more than `limit` bytes.
   */
  lemma HexDumpShowsPrefix(data: Bytes, limit: nat)
    ensures ShownBytes(HexDump(data, limit)) == data[.. Min(|data|, RowWidth * |HexDump(data, limit)|)]
  {
    RowsFromShow(data, 0, Min(|data|, limit));
  }

  /** A stream of at least 112 bytes shows bytes 0..111 in its 100-byte dump. */
  lemma StreamDumpShowsSevenRows(data: Bytes)
    requires |data| >= 112
    ensures |HexDump(data, StreamDumpLimit)| == 7
    ensures ShownBytes(HexDump(data, StreamDumpLimit)) == data[..112]
  {
    HexDumpShowsPrefix(data, StreamDumpLimit);
  }

  /** Data no longer than the limit is shown in full. */
  lemma ShortDataShownInFull(data: Bytes, limit: nat)
    requires |data| <= limit
    ensures ShownBytes(HexDump(data, limit)) == data
  {
    HexDumpShowsPrefix(data, limit);
  }

  // ---- the text of a row: `{j:04x}: {hex_values:<47} | {ascii_values}` ----

  /** A character of `0123456789abcdef`. */
  predicate IsHexDigit(c: char) {
    '0' <= c <= '9' || 'a' <= c <= 'f'
  }

  /** The lower-case digit for `d`, which reads back as `d`. */
  function HexDigit(d: nat): (c: char)
    requires d < 16
    ensures IsHexDigit(c) && HexDigitValue(c) == d
  {
    if d < 10 then ('0' as int + d) as char else ('a' as int + d - 10) as char
  }

  function HexDigitValue(c: char): nat {
    if '0' <= c <= '9' then c as int - '0' as int
    else if 'a' <= c <= 'f' then c as int - 'a' as int + 10
    else 0
  }

  /** `f"{b:02x}"`. */
  function Hex2(b: byte): (s: string)
    ensures |s| == 2
    ensures forall k :: 0 <= k < |s| ==> IsHexDigit(s[k])
  {
    [HexDigit(b as int / 16), HexDigit(b as int % 16)]
  }

  /** Reading the two printed digits back gives the byte. */
  lemma Hex2RoundTrip(b: byte)
    ensures HexDigitValue(Hex2(b)[0]) * 16 + HexDigitValue(Hex2(b)[1]) == b as int
  {
  }

  /** Lower-case hexadecimal without padding. */
  function ToHex(n: nat): (s: string)
    ensures |s| >= 1
    ensures forall k :: 0 <= k < |s| ==> IsHexDigit(s[k])
    decreases n
  {
    if n < 16 then [HexDigit(n)] else ToHex(n / 16) + [HexDigit(n % 16)]
  }

  lemma {:induction false} ToHexLength(n: nat, w: nat)
    requires n < Pow16(w) && w >= 1
    ensures |ToHex(n)| <= w
    decreases n
  {
    if n >= 16 {
      assert n / 16 < Pow16(w - 1) by { assert Pow16(w) == 16 * Pow16(w - 1); }
      ToHexLength(n / 16, w - 1);
    }
  }

  function Pow16(w: nat): nat {
    if w == 0 then 1 else 16 * Pow16(w - 1)
  }

  /** `f"{n:04x}"`: at least four digits, zero-padded on the left. */
  function Hex4(n: nat): (s: string)
    ensures |s| >= 4 && |s| >= |ToHex(n)|
    ensures forall k :: 0 <= k < |s| ==> IsHexDigit(s[k])
  {
    var digits := ToHex(n);
    if |digits| >= 4 then digits else seq(4 - |digits|, _ => '0') + digits
  }

  /** The number a string of lower-case hex digits denotes. */
  function HexValue(s: string): nat {
    if s == [] then 0 else HexValue(s[..|s| - 1]) * 16 + HexDigitValue(s[|s| - 1])
  }

  /** Reading back the unpadded digits gives the number. */
  lemma {:induction false} ToHexRoundTrip(n: nat)
    ensures HexValue(ToHex(n)) == n
    decreases n
  {
    if n >= 16 {
      var s := ToHex(n);
      assert s[..|s| - 1] == ToHex(n / 16);
      ToHexRoundTrip(n / 16);
    }
  }

  lemma {:induction false} ZerosHaveNoValue(z: nat)
    ensures HexValue(seq(z, _ => '0')) == 0
  {
    if z > 0 {
      assert seq(z, _ => '0')[..z - 1] == seq(z - 1, _ => '0');
      ZerosHaveNoValue(z - 1);
    }
  }

  lemma {:induction false} LeadingZerosIgnored(z: nat, s: string)
    ensures HexValue(seq(z, _ => '0') + s) == HexValue(s)
    decreases |s|
  {
    var t := seq(z, _ => '0') + s;
    if s == [] {
      assert t == seq(z, _ => '0');
      ZerosHaveNoValue(z);
    } else {
      assert t[..|t| - 1] == seq(z, _ => '0') + s[..|s| - 1];
      LeadingZerosIgnored(z, s[..|s| - 1]);
    }
  }

  /** The printed offset reads back as the offset; below 65536 it has exactly four digits. */
  lemma Hex4RoundTrip(n: nat)
    ensures HexValue(Hex4(n)) == n
    ensures n < 65536 ==> |Hex4(n)| == 4
  {
    ToHexRoundTrip(n);
    if |ToHex(n)| < 4 {
      LeadingZerosIgnored(4 - |ToHex(n)|, ToHex(n));
    }
    if n < 65536 {
      ToHexLength(n, 4);
    }
  }

  /** `' '.join(f"{b:02x}" for b in bs)`: each byte's two digits, one space between bytes. */
  function HexColumn(bs: Bytes): (s: string)
    ensures |s| == if bs == [] then 0 else 3 * |bs| - 1
    ensures forall k :: 0 <= k < |bs| ==> s[3 * k] == Hex2(bs[k])[0] && s[3 * k + 1] == Hex2(bs[k])[1]
    ensures forall k :: 0 <= k < |bs| - 1 ==> s[3 * k + 2] == ' '
  {
    if bs == [] then []
    else if |bs| == 1 then Hex2(bs[0])
    else
      var tail := HexColumn(bs[1..]);
      var s := Hex2(bs[0]) + " " + tail;
      forall k | 1 <= k < |bs|
        ensures s[3 * k] == Hex2(bs[k])[0] && s[3 * k + 1] == Hex2(bs[k])[1]
      {
        assert bs[1..][k - 1] == bs[k];
        assert s[3 * k] == tail[3 * (k - 1)] && s[3 * k + 1] == tail[3 * (k - 1) + 1];
      }
      forall k | 1 <= k < |bs| - 1
        ensures s[3 * k + 2] == ' '
      {
        assert s[3 * k + 2] == tail[3 * (k - 1) + 2];
      }
      s
  }

  /** Each byte's two printed digits read back as the byte. */
  lemma HexColumnReadsBack(bs: Bytes, k: nat)
    requires k < |bs|
    ensures HexDigitValue(HexColumn(bs)[3 * k]) * 16 + HexDigitValue(HexColumn(bs)[3 * k + 1]) == bs[k] as int
  {
    Hex2RoundTrip(bs[k]);
  }

  /** `f"{s:<w}"`: pad on the right, never truncate. */
  function PadRight(s: string, w: nat): (r: string)
    ensures |r| == if |s| >= w then |s| else w
    ensures r[..|s|] == s
    ensures forall k :: |s| <= k < |r| ==> r[k] == ' '
  {
    if |s| >= w then s else s + seq(w - |s|, _ => ' ')
  }

  /** One printed row of a dump, after `indent` spaces. */
  function RenderRow(row: HexRow, indent: nat): string {
    seq(indent, _ => ' ') + Hex4(row.offset) + ": " + PadRight(HexColumn(row.shown), HexColumnWidth) + " | " + row.ascii
  }

  /**
   A row's text: the indent, four offset digits, `: `, the hex column padded
   to 47, ` | `, the ASCII column.
   */
  lemma RenderRowLayout(row: HexRow, indent: nat)
    requires row.offset < 65536 && |row.shown| <= RowWidth
    ensures |RenderRow(row, indent)| == indent + 56 + |row.ascii|
    ensures forall k :: 0 <= k < indent ==> RenderRow(row, indent)[k] == ' '
    ensures RenderRow(row, indent)[indent .. indent + 4] == Hex4(row.offset)
    ensures HexValue(RenderRow(row, indent)[indent .. indent + 4]) == row.offset
    ensures RenderRow(row, indent)[indent + 4 .. indent + 6] == ": "
    ensures RenderRow(row, indent)[indent + 6 .. indent + 53] == PadRight(HexColumn(row.shown), HexColumnWidth)
    ensures RenderRow(row, indent)[indent + 53 .. indent + 56] == " | "
    ensures RenderRow(row, indent)[indent + 56 ..] == row.ascii
  {
    Hex4RoundTrip(row.offset);
    var pad := seq(indent, _ => ' ');
    var head := pad + Hex4(row.offset) + ": " + PadRight(HexColumn(row.shown), HexColumnWidth);
    assert |head| == indent + 53;
    assert RenderRow(row, indent) == head + " | " + row.ascii;
    assert head[..indent] == pad;
    assert head[indent .. indent + 4] == Hex4(row.offset);
    assert head[indent + 4 .. indent + 6] == ": ";
    assert head[indent + 6 ..] == PadRight(HexColumn(row.shown), HexColumnWidth);
  }

  /**
   Every row of a dump lines up, and its ASCII column has one character per
   shown byte; the raw dump prints with `RawIndent`.
   */
  lemma RenderedRowsAlign(data: Bytes, limit: nat, k: nat)
    requires limit <= 65536 && k < |HexDump(data, limit)|
    ensures var line := RenderRow(HexDump(data, limit)[k], RawIndent);
            && |line| == RawIndent + 56 + |HexDump(data, limit)[k].shown|
            && line[RawIndent + 53 .. RawIndent + 56] == " | "
            && line[RawIndent + 56 ..] == AsciiColumn(HexDump(data, limit)[k].shown)
  {
    var j := RowWidth * k;
    RowStartsInside(k, Min(|data|, limit));
    assert HexDump(data, limit)[k] == Row(data, j);
    RowLayout(data, j, RawIndent);
  }

  /** A row index below the row count starts inside the covered prefix. */
  lemma RowStartsInside(k: nat, n: nat)
    ensures k < (n + RowWidth - 1) / RowWidth ==> RowWidth * k < n
  {
    var q := (n + RowWidth - 1) / RowWidth;
    assert RowWidth * q <= n + RowWidth - 1;
  }

  /** Every printed row of a stream dump has its separator at columns 57..59 and its ASCII column after it. */
  lemma StreamRowsAlign(data: Bytes, k: nat)
    requires k < |HexDump(data, StreamDumpLimit)|
    ensures var line := RenderRow(HexDump(data, StreamDumpLimit)[k], StreamIndent);
            && |line| == 60 + |HexDump(data, StreamDumpLimit)[k].shown|
            && line[57 .. 60] == " | "
            && line[60 ..] == AsciiColumn(HexDump(data, StreamDumpLimit)[k].shown)
  {
    var j := RowWidth * k;
    RowStartsInside(k, Min(|data|, StreamDumpLimit));
    assert HexDump(data, StreamDumpLimit)[k] == Row(data, j);
    RowLayout(data, j, StreamIndent);
  }

  /** The rendered row at `j` lines up, and its ASCII column matches the bytes shown. */
  lemma RowLayout(data: Bytes, j: nat, indent: nat)
    requires j < |data| && j < 65536
    ensures |RenderRow(Row(data, j), indent)| == indent + 56 + |Row(data, j).shown|
    ensures RenderRow(Row(data, j), indent)[indent + 53 .. indent + 56] == " | "
    ensures RenderRow(Row(data, j), indent)[indent + 56 ..] == AsciiColumn(Row(data, j).shown)
  {
    var row := Row(data, j);
    assert data[j .. j + Min(RowWidth, |data| - j)] == data[j .. Min(j + RowWidth, |data|)];
    RenderRowLayout(row, indent);
  }

  // ---- the text test ----

  /** `all(b == 0 or 32 <= b <= 126 or b in (9, 10, 13) for b in data[:100])`. */
  predicate LooksLikeText(data: Bytes) {
    forall k :: 0 <= k < Min(|data|, TextWindow) ==> IsTextByte(data[k])
  }

  /** Bytes past the first 100 never affect the test. */
  lemma TextTestReadsOnlyTheHeader(data: Bytes, tail: Bytes)
    requires |data| >= TextWindow
    ensures LooksLikeText(data + tail) == LooksLikeText(data)
  {
    assert forall k :: 0 <= k < TextWindow ==> (data + tail)[k] == data[k];
  }

  /** A single non-text byte among the first 100 makes the data binary. */
  lemma BinaryByteDefeatsText(data: Bytes, k: nat)
    requires k < |data| && k < TextWindow && !IsTextByte(data[k])
    ensures !LooksLikeText(data)
  {
  }

  datatype SampleEncoding = Utf16Le | Utf8

  /** The codec chosen for a stream's text sample (analyser.py lines 151-154). */
  function StreamSampleEncoding(data: Bytes): SampleEncoding {
    if |data| >= 2 && data[0] == 0xFF && data[1] == 0xFE then Utf16Le else Utf8
  }

  /**
   The UTF-16 branch is unreachable: it is only consulted after the text test,
   which rejects the byte-order mark's 0xFF.
   */
  lemma TextSampleIsNeverUtf16(data: Bytes)
    requires LooksLikeText(data)
    ensures StreamSampleEncoding(data) == Utf8
  {
  }
}

=== FILE: Records.dfy ===
/**
 The inventory loop of `parse_wellcat_data` (wellcat_parser.py lines 30-53):
 32-byte records at offsets 200, 232, ... that fit in the data, with the
 grade read from bytes 8..16 as ASCII; a record whose grade bytes are not
 ASCII raises inside the `try` and is skipped. The three floats are kept as
 their raw little-endian 4-byte words.
 */
module Records {
  import opened ByteClasses

  const RecordStart: nat := 200
  const RecordSize: nat := 32
  const GradeFrom: nat := 8
  const GradeTo: nat := 16
  const Nul: char := '\0'

  /** One inventory dict: `diameter`, `length`, `grade`, `rating`. */
  datatype Item = Item(diameter: Bytes, length: Bytes, grade: string, rating: Bytes)

  // ---- str.strip('\x00') ----

  function StripLeft(s: string): (r: string)
    ensures |r| <= |s| && r == s[|s| - |r|..]
    ensures forall k :: 0 <= k < |s| - |r| ==> s[k] == Nul
    ensures r == [] || r[0] != Nul
  {
    if s != [] && s[0] == Nul then StripLeft(s[1..]) else s
  }

  function StripRight(s: string): (r: string)
    ensures |r| <= |s| && r == s[..|r|]
    ensures forall k :: |r| <= k < |s| ==> s[k] == Nul
    ensures r == [] || r[|r| - 1] != Nul
  {
    if s != [] && s[|s| - 1] == Nul then StripRight(s[..|s| - 1]) else s
  }

  /** `s.strip('\x00')`: NULs removed from both ends. */
  function StripNul(s: string): (r: string)
    ensures |r| <= |s|
    ensures r == [] || (r[0] != Nul && r[|r| - 1] != Nul)
  {
    StripRight(StripLeft(s))
  }

  /** Stripping twice is stripping once. */
  lemma StripNulIdempotent(s: string)
    ensures StripNul(StripNul(s)) == StripNul(s)
  {
    var r := StripNul(s);
    assert StripLeft(r) == r;
    assert StripRight(r) == r;
  }

  lemma {:induction false} StripLeftOfPadded(pre: nat, u: string)
    requires u == [] || u[0] != Nul
    ensures StripLeft(seq(pre, _ => Nul) + u) == u
  {
    if pre > 0 {
      var t := seq(pre, _ => Nul) + u;
      assert t[0] == Nul;
      assert t[1..] == seq(pre - 1, _ => Nul) + u;
      StripLeftOfPadded(pre - 1, u);
    } else {
      assert seq(pre, _ => Nul) + u == u;
    }
  }

  lemma {:induction false} StripRightOfPadded(u: string, post: nat)
    requires u == [] || u[|u| - 1] != Nul
    ensures StripRight(u + seq(post, _ => Nul)) == u
  {
    if post > 0 {
      var t := u + seq(post, _ => Nul);
      assert t[|t| - 1] == Nul;
      assert t[..|t| - 1] == u + seq(post - 1, _ => Nul);
      StripRightOfPadded(u, post - 1);
    } else {
      assert u + seq(post, _ => Nul) == u;
    }
  }

  /** NUL padding on either side is removed and nothing else is. */
  lemma StripNulRemovesPadding(pre: nat, s: string, post: nat)
    requires s == [] || (s[0] != Nul && s[|s| - 1] != Nul)
    ensures StripNul(seq(pre, _ => Nul) + s + seq(post, _ => Nul)) == s
  {
    var t := seq(pre, _ => Nul) + s + seq(post, _ => Nul);
    if s == [] {
      assert t == seq(pre + post, _ => Nul) + [];
      StripLeftOfPadded(pre + post, []);
    } else {
      var u := s + seq(post, _ => Nul);
      assert t == seq(pre, _ => Nul) + u;
      StripLeftOfPadded(pre, u);
      StripRightOfPadded(s, post);
    }
  }

  // ---- record slicing ----

  /** `record[8:16].decode('ascii')` succeeds. */
  predicate GradeIsAscii(record: Bytes)
    requires |record| == RecordSize
  {
    AllAscii(record[GradeFrom .. GradeTo])
  }

  /** The dict built from one record (lines 39-49). */
  function RecordItem(record: Bytes): (item: Item)
    requires |record| == RecordSize
    ensures |item.diameter| == |item.length| == |item.rating| == 4
    ensures |item.grade| <= GradeTo - GradeFrom
    ensures item.diameter == record[0 .. 4] && item.length == record[4 .. 8] && item.rating == record[16 .. 20]
    ensures item.grade == StripNul(AsciiDecode(record[GradeFrom .. GradeTo]))
  {
    Item(record[0 .. 4], record[4 .. 8], StripNul(AsciiDecode(record[GradeFrom .. GradeTo])), record[16 .. 20])
  }

  /**
   An ASCII grade written into bytes 8..16 with NUL padding on either side
   reads back as that grade.
   */
  lemma GradeRoundTrip(record: Bytes, pre: nat, g: Bytes, post: nat)
    requires |record| == RecordSize
    requires record[GradeFrom .. GradeTo] == seq(pre, _ => 0 as byte) + g + seq(post, _ => 0 as byte)
    requires AllAscii(g) && (g == [] || (g[0] != 0 && g[|g| - 1] != 0))
    ensures GradeIsAscii(record)
    ensures RecordItem(record).grade == AsciiDecode(g)
  {
    var raw := record[GradeFrom .. GradeTo];
    var s := AsciiDecode(g);
    assert AsciiDecode(raw) == seq(pre, _ => Nul) + s + seq(post, _ => Nul) by {
      forall k | 0 <= k < |raw|
        ensures AsciiDecode(raw)[k] == (seq(pre, _ => Nul) + s + seq(post, _ => Nul))[k]
      {
        if k < pre {
          assert raw[k] == 0;
        } else if k < pre + |g| {
          assert raw[k] == g[k - pre];
        } else {
          assert raw[k] == 0;
        }
      }
    }
    StripNulRemovesPadding(pre, s, post);
  }

  function RecordAt(data: Bytes, i: nat): (record: Bytes)
    requires i + RecordSize <= |data|
    ensures |record| == RecordSize
  {
    data[i .. i + RecordSize]
  }

  /** The record at `i` fits and survives the ASCII decode. */
  predicate Decodable(data: Bytes, i: nat) {
    i + RecordSize <= |data| && GradeIsAscii(RecordAt(data, i))
  }

  function ItemAt(data: Bytes, i: nat): Item
    requires i + RecordSize <= |data|
  {
    RecordItem(RecordAt(data, i))
  }

  /**
   The offsets from `i` on whose records are kept, stepping by 32 as
   `range(200, len(data), 32)` does and stopping where a record no longer fits.
   */
  function Kept(data: Bytes, i: nat): (offs: seq<nat>)
    ensures forall k :: 0 <= k < |offs| ==> i <= offs[k] && Decodable(data, offs[k])
    ensures forall j, k :: 0 <= j < k < |offs| ==> offs[j] < offs[k]
    decreases |data| - i
  {
    if i + RecordSize > |data| then []
    else if Decodable(data, i) then [i] + Kept(data, i + RecordSize)
    else Kept(data, i + RecordSize)
  }

  /** Every kept offset is a slot of the 32-byte grid that starts at `i`. */
  lemma {:induction false} KeptAreSlots(data: Bytes, i: nat, o: nat)
    requires o in Kept(data, i)
    ensures (o - i) % RecordSize == 0
    decreases |data| - i
  {
    if o != i {
      KeptAreSlots(data, i + RecordSize, o);
      assert o - i == (o - (i + RecordSize)) + RecordSize;
    }
  }

  /** Kept offsets are at most `(len - i) div 32` in number. */
  lemma {:induction false} KeptBound(data: Bytes, i: nat)
    ensures |Kept(data, i)| <= if i + RecordSize <= |data| then (|data| - i) / RecordSize else 0
    decreases |data| - i
  {
    if i + RecordSize <= |data| {
      KeptBound(data, i + RecordSize);
    }
  }

  /** A record is dropped only when its grade bytes are not ASCII. */
  lemma {:induction false} KeptIsComplete(data: Bytes, i: nat, o: nat)
    requires i <= o && (o - i) % RecordSize == 0 && Decodable(data, o)
    ensures o in Kept(data, i)
    decreases o - i
  {
    if o > i {
      assert o - (i + RecordSize) == (o - i) - RecordSize;
      KeptIsComplete(data, i + RecordSize, o);
    }
  }

  /** The offsets that yield items, in the order the loop visits them. */
  function KeptOffsets(data: Bytes): seq<nat> {
    Kept(data, RecordStart)
  }

  function ItemsAt(data: Bytes, offs: seq<nat>): (items: seq<Item>)
    requires forall k :: 0 <= k < |offs| ==> offs[k] + RecordSize <= |data|
    ensures |items| == |offs|
    ensures forall k :: 0 <= k < |offs| ==> items[k] == ItemAt(data, offs[k])
  {
    if offs == [] then [] else [ItemAt(data, offs[0])] + ItemsAt(data, offs[1..])
  }

  lemma ItemsAtCons(data: Bytes, o: nat, offs: seq<nat>)
    requires o + RecordSize <= |data|
    requires forall k :: 0 <= k < |offs| ==> offs[k] + RecordSize <= |data|
    ensures ItemsAt(data, [o] + offs) == [ItemAt(data, o)] + ItemsAt(data, offs)
  {
    assert ([o] + offs)[1..] == offs;
  }

  /**
   What one record adds to the inventory: its item, or nothing when the
   ASCII decode raises and the `except` clause skips it.
   */
  function ItemsOfRecord(record: Bytes): (items: seq<Item>)
    requires |record| == RecordSize
    ensures |items| <= 1
    ensures |items| == 1 <==> GradeIsAscii(record)
    ensures items != [] ==> items[0] == RecordItem(record)
  {
    if GradeIsAscii(record) then [RecordItem(record)] else []
  }

  /** One step of the loop: the record at `i` contributes its item when it is kept. */
  lemma KeptStep(data: Bytes, i: nat)
    requires i + RecordSize <= |data|
    ensures ItemsAt(data, Kept(data, i)) == ItemsOfRecord(RecordAt(data, i)) + ItemsAt(data, Kept(data, i + RecordSize))
  {
    var rest := Kept(data, i + RecordSize);
    if Decodable(data, i) {
      ItemsAtCons(data, i, rest);
    } else {
      assert [] + ItemsAt(data, rest) == ItemsAt(data, rest);
    }
  }

  /** The items still to come from offset `i` on, after `items` are collected. */
  predicate Collected(data: Bytes, i: nat, items: seq<Item>) {
    items + ItemsAt(data, Kept(data, i)) == ItemsAt(data, KeptOffsets(data))
  }

  lemma StepKeepsCollected(data: Bytes, i: nat, items: seq<Item>)
    requires i + RecordSize <= |data| && Collected(data, i, items)
    ensures Collected(data, i + RecordSize, items + ItemsOfRecord(data[i .. i + RecordSize]))
  {
    KeptStep(data, i);
    assert RecordAt(data, i) == data[i .. i + RecordSize];
    Regroup(items, ItemsOfRecord(RecordAt(data, i)), ItemsAt(data, Kept(data, i + RecordSize)),
            ItemsAt(data, KeptOffsets(data)));
  }

  lemma Regroup(a: seq<Item>, b: seq<Item>, c: seq<Item>, whole: seq<Item>)
    requires a + (b + c) == whole
    ensures (a + b) + c == whole
  {
  }

  lemma PastEndKeepsCollected(data: Bytes, i: nat, items: seq<Item>)
    requires i + RecordSize > |data| && Collected(data, i, items)
    ensures Collected(data, i + RecordSize, items)
    ensures items == ItemsAt(data, KeptOffsets(data))
  {
    assert Kept(data, i) == [] && Kept(data, i + RecordSize) == [];
    assert items + [] == items;
  }

  /** The loop of lines 33-53. */
  method SliceRecords(data: Bytes) returns (items: seq<Item>)
    ensures items == ItemsAt(data, KeptOffsets(data))
  {
    items := [];
    var i := RecordStart;
    assert [] + ItemsAt(data, Kept(data, i)) == ItemsAt(data, KeptOffsets(data));
    while i < |data|
      invariant Collected(data, i, items)
      decreases |data| - i
    {
      if i + RecordSize <= |data| {
        var record := data[i .. i + RecordSize];
        StepKeepsCollected(data, i, items);
        items := items + ItemsOfRecord(record);
      } else {
        PastEndKeepsCollected(data, i, items);
      }
      i := i + RecordSize;
    }
    PastEndKeepsCollected(data, i, items);
  }

  /** Data shorter than 232 bytes has no complete record. */
  lemma ShortDataHasNoItems(data: Bytes)
    requires |data| < RecordStart + RecordSize
    ensures KeptOffsets(data) == []
  {
  }

  /** At most `(len - 200) div 32` items. */
  lemma ItemCountBound(data: Bytes)
    requires |data| >= RecordStart
    ensures |KeptOffsets(data)| <= (|data| - RecordStart) / RecordSize
  {
    KeptBound(data, RecordStart);
  }

  /**
   An offset yields an item exactly when it is a slot of the grid from 200,
   the whole record fits, and its grade bytes are ASCII.
   */
  lemma KeptOffsetsIff(data: Bytes, o: nat)
    ensures o in KeptOffsets(data)
        <==> RecordStart <= o && (o - RecordStart) % RecordSize == 0 && Decodable(data, o)
  {
    if o in KeptOffsets(data) {
      KeptAreSlots(data, RecordStart, o);
    }
    if RecordStart <= o && (o - RecordStart) % RecordSize == 0 && Decodable(data, o) {
      KeptIsComplete(data, RecordStart, o);
    }
  }
}

=== FILE: Signatures.dfy ===
/**
 The "common file signatures" table of analyser.py (lines 199-223), consulted
 when the decompressed payload cannot be opened as a compound file.
 */
module Signatures {
  import opened Wrappers
  import opened ByteClasses

  datatype Signature = Signature(magic: Bytes, fileType: string)

  const ZipMagic: Bytes := [0x50, 0x4B, 0x03, 0x04]
  const GzipArchiveMagic: Bytes := [0x1F, 0x8B, 0x08]
  const OleMagic: Bytes := [0xD0, 0xCF, 0x11, 0xE0, 0xA1, 0xB1, 0x1A, 0xE1]
  const OoxmlMagic: Bytes := [0x50, 0x4B, 0x03, 0x04, 0x14, 0x00, 0x06, 0x00]
  const GzipFileMagic: Bytes := [0x1F, 0x8B]

  const OoxmlType: string := "MS Office document (OOXML)"

  /**
   The dictionary the literal of lines 199-216 evaluates to. The literal lists
   `PK\x03\x04` twice (spelled once in hex escapes), both times as "ZIP archive";
   a dict keeps the first position of a repeated key, so fifteen entries remain.
   */
  const SignatureTable: seq<Signature> := [
    Signature(ZipMagic, "ZIP archive"),
    Signature(GzipArchiveMagic, "GZIP archive"),
    Signature([0x42, 0x5A, 0x68], "BZIP2 archive"),
    Signature([0x37, 0x7A, 0xBC, 0xAF, 0x27, 0x1C], "7Z archive"),
    Signature([0x52, 0x61, 0x72, 0x21, 0x1A, 0x07], "RAR archive"),
    Signature([0x7F, 0x45, 0x4C, 0x46], "ELF executable"),
    Signature([0x4D, 0x5A], "Windows executable (MZ)"),
    Signature([0xFF, 0xD8, 0xFF], "JPEG image"),
    Signature([0x89, 0x50, 0x4E, 0x47, 0x0D, 0x0A, 0x1A, 0x0A], "PNG image"),
    Signature([0x25, 0x50, 0x44, 0x46], "PDF document"),
    Signature(OleMagic, "MS Office document (OLE)"),
    Signature(OoxmlMagic, OoxmlType),
    Signature([0x3C, 0x3F, 0x78, 0x6D, 0x6C], "XML document"),
    Signature([0x7B], "JSON document (starts with {)"),
    Signature(GzipFileMagic, "GZIP file")
  ]

  /** The index of the first table entry that prefixes the data, in table order. */
  function FirstMatchFrom(table: seq<Signature>, data: Bytes, i: nat): (r: Option<nat>)
    requires i <= |table|
    ensures r.Some? ==> i <= r.value < |table| && StartsWith(data, table[r.value].magic)
                        && forall j :: i <= j < r.value ==> !StartsWith(data, table[j].magic)
    ensures r.None? <==> forall j :: i <= j < |table| ==> !StartsWith(data, table[j].magic)
    decreases |table| - i
  {
    if i == |table| then None
    else if StartsWith(data, table[i].magic) then Some(i)
    else FirstMatchFrom(table, data, i + 1)
  }

  /** The `for … break … else` loop of lines 218-223: the index of the reported entry, or none. */
  function DetectEntry(data: Bytes): (r: Option<nat>)
    ensures r.None? <==> forall j :: 0 <= j < |SignatureTable| ==> !StartsWith(data, SignatureTable[j].magic)
    ensures r.Some? ==> r.value < |SignatureTable| && StartsWith(data, SignatureTable[r.value].magic)
                        && forall j :: 0 <= j < r.value ==> !StartsWith(data, SignatureTable[j].magic)
  {
    FirstMatchFrom(SignatureTable, data, 0)
  }

  /** The file type printed for the data, if any. */
  function DetectFileType(data: Bytes): (r: Option<string>)
    ensures r.None? <==> forall i :: 0 <= i < |SignatureTable| ==> !StartsWith(data, SignatureTable[i].magic)
    ensures r.Some? ==> exists k :: 0 <= k < |SignatureTable| && StartsWith(data, SignatureTable[k].magic)
                                    && (forall j :: 0 <= j < k ==> !StartsWith(data, SignatureTable[j].magic))
                                    && r.value == SignatureTable[k].fileType
  {
    match DetectEntry(data)
    case Some(k) => Some(SignatureTable[k].fileType)
    case None => None
  }

  /** The only entry carrying the OOXML description is number 11. */
  lemma OoxmlTypeOnlyAtEleven()
    ensures forall k :: 0 <= k < |SignatureTable| && SignatureTable[k].fileType == OoxmlType ==> k == 11
  {
  }

  /** The OOXML entry is shadowed by the ZIP entry, whose magic is a prefix of its own. */
  lemma OoxmlIsNeverReported(data: Bytes)
    ensures DetectFileType(data) != Some(OoxmlType)
  {
    OoxmlTypeOnlyAtEleven();
    if StartsWith(data, OoxmlMagic) {
      assert data[..4] == OoxmlMagic[..4] == ZipMagic;
      assert StartsWith(data, SignatureTable[0].magic);
      assert DetectEntry(data) == Some(0);
    }
  }

  /** The entry reported is the first one whose magic prefixes the data. */
  lemma DetectedAt(data: Bytes, k: nat)
    requires k < |SignatureTable| && StartsWith(data, SignatureTable[k].magic)
    requires forall j :: 0 <= j < k ==> !StartsWith(data, SignatureTable[j].magic)
    ensures DetectEntry(data) == Some(k)
  {
  }

  /** A magic whose first byte differs from the data's does not prefix it. */
  lemma FirstByteRulesOut(data: Bytes, j: nat)
    requires |data| > 0 && j < |SignatureTable| && SignatureTable[j].magic[0] != data[0]
    ensures !StartsWith(data, SignatureTable[j].magic)
  {
    var m := SignatureTable[j].magic;
    if |m| <= |data| {
      assert data[..|m|][0] == data[0];
    }
  }

  /** "GZIP file" is reported exactly when `1F 8B` is not followed by the deflate method byte 08. */
  lemma GzipFileIff(data: Bytes)
    ensures DetectEntry(data) == Some(14)
            <==> StartsWith(data, GzipFileMagic) && !StartsWith(data, GzipArchiveMagic)
  {
    if StartsWith(data, GzipFileMagic) && !StartsWith(data, GzipArchiveMagic) {
      assert data[..2][0] == 0x1F;
      forall j | 0 <= j < 14 ensures !StartsWith(data, SignatureTable[j].magic) {
        if j != 1 {
          FirstByteRulesOut(data, j);
        }
      }
      DetectedAt(data, 14);
    }
    if DetectEntry(data) == Some(14) {
      assert SignatureTable[14].magic == GzipFileMagic && SignatureTable[1].magic == GzipArchiveMagic;
    }
  }

  /** Data starting with the compound-file magic is reported as an OLE document. */
  lemma OleMagicDetected(data: Bytes)
    requires StartsWith(data, OleMagic)
    ensures DetectEntry(data) == Some(10)
  {
    assert data[..8][0] == 0xD0;
    forall j | 0 <= j < 10 ensures !StartsWith(data, SignatureTable[j].magic) {
      FirstByteRulesOut(data, j);
    }
    DetectedAt(data, 10);
  }
}

=== FILE: StreamNames.dfy ===
/**
 The file name under which `analyze_edm_file` exports a container stream
 (analyser.py lines 166-175): the path is flattened with `_`, path separators
 become `_`, every other unsafe character is dropped, and an empty result
 falls back to `stream_<i+1>`.
 */
module StreamNames {
  import opened Decimal

  /** A listed stream path: a tuple/list of components, or a plain string. */
  datatype StreamPath = Components(parts: seq<string>) | Plain(name: string)

  /** `str.isalnum`, restricted to ASCII. */
  predicate IsAlnum(c: char) {
    ('a' <= c <= 'z') || ('A' <= c <= 'Z') || ('0' <= c <= '9')
  }

  /** `c.isalnum() or c in '_-.'`. */
  predicate IsSafeChar(c: char) {
    IsAlnum(c) || c == '_' || c == '-' || c == '.'
  }

  predicate AllSafe(s: string) {
    forall k :: 0 <= k < |s| ==> IsSafeChar(s[k])
  }

  /** The total length of the parts. */
  function TotalLength(parts: seq<string>): nat {
    if parts == [] then 0 else |parts[0]| + TotalLength(parts[1..])
  }

  /**
   `'_'.join(parts)`: the parts and one separator between each two of them,
   starting with the first part.
   */
  function JoinUnderscore(parts: seq<string>): (r: string)
    ensures parts != [] ==> |r| == TotalLength(parts) + |parts| - 1
    ensures parts != [] ==> r[..|parts[0]|] == parts[0]
    ensures |parts| >= 2 ==> r[|parts[0]|] == '_'
  {
    if parts == [] then ""
    else if |parts| == 1 then parts[0]
    else parts[0] + "_" + JoinUnderscore(parts[1..])
  }

  /** `.replace('\\', '_').replace('/', '_')`. */
  function ReplaceSeparators(s: string): (r: string)
    ensures |r| == |s|
    ensures forall k :: 0 <= k < |s| ==> r[k] == (if s[k] == '\\' || s[k] == '/' then '_' else s[k])
  {
    seq(|s|, k requires 0 <= k < |s| => if s[k] == '\\' || s[k] == '/' then '_' else s[k])
  }

  /** `''.join(c for c in s if c.isalnum() or c in '_-.')`. */
  function KeepSafe(s: string): (r: string)
    ensures AllSafe(r)
    ensures |r| <= |s|
    ensures AllSafe(s) ==> r == s
    ensures (forall k :: 0 <= k < |s| ==> !IsSafeChar(s[k])) ==> r == ""
  {
    if s == [] then ""
    else if IsSafeChar(s[0]) then [s[0]] + KeepSafe(s[1..])
    else KeepSafe(s[1..])
  }

  /** Filtering distributes over concatenation: every safe character survives, in order. */
  lemma {:induction false} KeepSafeAppend(a: string, b: string)
    ensures KeepSafe(a + b) == KeepSafe(a) + KeepSafe(b)
    decreases |a|
  {
    if a == [] {
      assert a + b == b;
    } else {
      assert (a + b)[0] == a[0];
      assert (a + b)[1..] == a[1..] + b;
      KeepSafeAppend(a[1..], b);
    }
  }

  /** `f"stream_{i+1}"`. */
  function FallbackName(index: nat): (r: string)
    ensures |r| > 0 && AllSafe(r)
  {
    "stream_" + ToDecimal(index + 1)
  }

  function Flatten(path: StreamPath): string {
    match path
    case Components(parts) => JoinUnderscore(parts)
    case Plain(name) => name
  }

  /** The exported file name of the stream listed at position `index`. */
  function SafeName(path: StreamPath, index: nat): (r: string)
    ensures |r| > 0
    ensures AllSafe(r)
    ensures KeepSafe(ReplaceSeparators(Flatten(path))) != [] ==> r == KeepSafe(ReplaceSeparators(Flatten(path)))
    ensures KeepSafe(ReplaceSeparators(Flatten(path))) == [] ==> r == FallbackName(index)
  {
    var kept := KeepSafe(ReplaceSeparators(Flatten(path)));
    if kept == [] then FallbackName(index) else kept
  }

  /** Sanitising a name that is already safe changes nothing, whatever its position. */
  lemma SafeNameIdempotent(path: StreamPath, index: nat, other: nat)
    ensures SafeName(Plain(SafeName(path, index)), other) == SafeName(path, index)
  {
    var r := SafeName(path, index);
    assert ReplaceSeparators(r) == r;
  }

  /** A non-empty safe name is its own export name. */
  lemma SafeNamesAreFixed(name: string, index: nat)
    requires |name| > 0 && AllSafe(name)
    ensures SafeName(Plain(name), index) == name
  {
    assert ReplaceSeparators(name) == name;
  }

  /**
   Distinct streams can share an export name, so the later export overwrites
   the earlier one: `("a", "b")`, `"a_b"` and `"a/b"` all become `a_b`.
   */
  lemma ExportNamesCollide(i: nat, j: nat, k: nat)
    ensures SafeName(Components(["a", "b"]), i) == "a_b"
    ensures SafeName(Plain("a_b"), j) == "a_b"
    ensures SafeName(Plain("a/b"), k) == "a_b"
  {
    assert JoinUnderscore(["a", "b"]) == "a_b";
    assert ReplaceSeparators("a_b") == "a_b";
    assert ReplaceSeparators("a/b") == "a_b";
    SafeNamesAreFixed("a_b", i);
  }

  /** A name made only of unsafe characters, none a separator, falls back to the position-based name. */
  lemma UnsafeNameFallsBack(name: string, index: nat)
    requires forall k :: 0 <= k < |name| ==> !IsSafeChar(name[k]) && name[k] != '/' && name[k] != '\\'
    ensures SafeName(Plain(name), index) == "stream_" + ToDecimal(index + 1)
  {
    assert ReplaceSeparators(name) == name;
  }
}

=== FILE: StringScan.dfy ===
/**
 The "TEXT STRINGS" pass of `reverse_engineer_wellcat_format`
 (wellcat_analyzer.py lines 17-36): a run starts at an ASCII letter, extends
 over text bytes, and is recorded when it is at least three bytes long; the
 scan resumes at the end of the run either way.
 */
module StringScan {
  import opened ByteClasses

  /** Runs shorter than this are not recorded. */
  const MinLength: nat := 3

  /** One `(offset, string_data)` pair of the returned list. */
  datatype Found = Found(offset: nat, text: string)

  function End(f: Found): nat {
    f.offset + |f.text|
  }

  ghost predicate AllText(data: Bytes, lo: nat, hi: nat) {
    hi <= |data| && forall k :: lo <= k < hi ==> IsTextByte(data[k])
  }

  /** What every recorded pair satisfies: a maximal text run that starts at a letter. */
  ghost predicate Recorded(data: Bytes, f: Found) {
    && End(f) <= |data|
    && |f.text| >= MinLength
    && IsLetter(data[f.offset])
    && AllText(data, f.offset, End(f))
    && f.text == AsciiDecode(data[f.offset .. End(f)])
    && (End(f) == |data| || !IsTextByte(data[End(f)]))
  }

  /** A letter followed by two more text bytes: the start of a run long enough to record. */
  ghost predicate LongRunAt(data: Bytes, p: nat) {
    p + MinLength <= |data| && IsLetter(data[p]) && IsTextByte(data[p + 1]) && IsTextByte(data[p + 2])
  }

  ghost predicate Covered(found: seq<Found>, p: nat) {
    exists j :: 0 <= j < |found| && found[j].offset <= p < End(found[j])
  }

  /** The inner `while` of line 26: the end of the text run starting at `offset`. */
  method RunEnd(data: Bytes, offset: nat) returns (end: nat)
    requires offset < |data| && IsTextByte(data[offset])
    ensures offset < end <= |data|
    ensures AllText(data, offset, end)
    ensures end == |data| || !IsTextByte(data[end])
  {
    end := offset;
    while end < |data| && IsTextByte(data[end])
      invariant offset <= end <= |data|
      invariant AllText(data, offset, end)
      decreases |data| - end
    {
      end := end + 1;
    }
  }

  /** Inside a run too short to record no letter starts a long enough run. */
  lemma ShortRunHidesNothing(data: Bytes, offset: nat, end: nat, p: nat)
    requires offset <= p < end <= |data| && end - offset < MinLength
    requires AllText(data, offset, end) && (end == |data| || !IsTextByte(data[end]))
    ensures !LongRunAt(data, p)
  {
  }

  /** Stepping over a non-letter keeps "no letter earlier in the current stretch". */
  lemma StepKeepsFirstLetter(data: Bytes, offset: nat)
    requires offset < |data| && !IsLetter(data[offset])
    requires forall q :: 0 <= q < offset && AllText(data, q, offset) && IsTextByte(data[offset])
                         ==> !IsLetter(data[q])
    ensures forall q :: (0 <= q < offset + 1 && AllText(data, q, offset + 1)
                         && offset + 1 < |data| && IsTextByte(data[offset + 1])) ==> !IsLetter(data[q])
  {
    forall q | 0 <= q < offset + 1 && AllText(data, q, offset + 1) && offset + 1 < |data| && IsTextByte(data[offset + 1])
      ensures !IsLetter(data[q])
    {
      if q < offset {
        assert AllText(data, q, offset);
        assert IsTextByte(data[offset]);
      }
    }
  }

  lemma CoveredGrows(found: seq<Found>, f: Found, p: nat)
    requires Covered(found, p)
    ensures Covered(found + [f], p)
  {
    var j :| 0 <= j < |found| && found[j].offset <= p < End(found[j]);
    assert (found + [f])[j] == found[j];
  }

  /** What the scan has established once it has reached `offset` with `found` collected. */
  ghost predicate Scanned(data: Bytes, offset: nat, found: seq<Found>) {
    && offset <= |data|
    && (forall j :: 0 <= j < |found| ==> Recorded(data, found[j]) && End(found[j]) <= offset)
    && (forall j, k :: 0 <= j < k < |found| ==> End(found[j]) < found[k].offset)
    && (forall p :: 0 <= p < offset && LongRunAt(data, p) ==> Covered(found, p))
    && (forall q :: 0 <= q < offset && AllText(data, q, offset) && offset < |data| && IsTextByte(data[offset])
                    ==> !IsLetter(data[q]))
    && (forall j, q :: 0 <= j < |found| && 0 <= q < found[j].offset && AllText(data, q, found[j].offset)
                       ==> !IsLetter(data[q]))
  }

  /** A run of three or more starting at a letter is recorded, and the scan resumes after it. */
  lemma RecordStep(data: Bytes, offset: nat, end: nat, found: seq<Found>)
    requires Scanned(data, offset, found) && offset < |data| && IsLetter(data[offset])
    requires offset < end <= |data| && AllText(data, offset, end) && (end == |data| || !IsTextByte(data[end]))
    requires end - offset >= MinLength
    ensures Scanned(data, end, found + [Found(offset, AsciiDecode(data[offset .. end]))])
  {
    var f := Found(offset, AsciiDecode(data[offset .. end]));
    var found' := found + [f];
    assert Recorded(data, f);
    forall j | 0 <= j < |found| ensures End(found[j]) < offset {
      assert Recorded(data, found[j]);
    }
    forall p | 0 <= p < end && LongRunAt(data, p) ensures Covered(found', p) {
      if p < offset {
        CoveredGrows(found, f, p);
      } else {
        assert found'[|found|] == f;
      }
    }
    forall j | 0 <= j < |found'| ensures Recorded(data, found'[j]) && End(found'[j]) <= end {
      if j < |found| {
        assert found'[j] == found[j];
      }
    }
    forall j, q | 0 <= j < |found'| && 0 <= q < found'[j].offset && AllText(data, q, found'[j].offset)
      ensures !IsLetter(data[q])
    {
      if j < |found| {
        assert found'[j] == found[j];
      }
    }
  }

  /** A run too short to record is skipped over. */
  lemma ShortStep(data: Bytes, offset: nat, end: nat, found: seq<Found>)
    requires Scanned(data, offset, found) && offset < |data| && IsLetter(data[offset])
    requires offset < end <= |data| && AllText(data, offset, end) && (end == |data| || !IsTextByte(data[end]))
    requires end - offset < MinLength
    ensures Scanned(data, end, found)
  {
    forall p | offset <= p < end ensures !LongRunAt(data, p) {
      ShortRunHidesNothing(data, offset, end, p);
    }
    forall j | 0 <= j < |found| ensures End(found[j]) <= end {
      assert End(found[j]) <= offset;
    }
  }

  /** A byte that is not a letter is stepped over. */
  lemma SkipStep(data: Bytes, offset: nat, found: seq<Found>)
    requires Scanned(data, offset, found) && offset < |data| && !IsLetter(data[offset])
    ensures Scanned(data, offset + 1, found)
  {
    StepKeepsFirstLetter(data, offset);
    assert !LongRunAt(data, offset);
    forall p | 0 <= p < offset + 1 && LongRunAt(data, p) ensures Covered(found, p) {
      assert p != offset;
    }
    forall j | 0 <= j < |found| ensures End(found[j]) <= offset + 1 {
      assert End(found[j]) <= offset;
    }
  }

  /**
   The scanner. Besides what each pair is, the contract says the list is
   complete (every letter that starts a long enough run lies in a recorded
   one) and that a recorded run starts at the first letter of its stretch
   of text bytes.
   */
  method ExtractStrings(data: Bytes) returns (found: seq<Found>)
    ensures forall j :: 0 <= j < |found| ==> Recorded(data, found[j])
    ensures forall j, k :: 0 <= j < k < |found| ==> End(found[j]) < found[k].offset
    ensures forall p :: 0 <= p < |data| && LongRunAt(data, p) ==> Covered(found, p)
    ensures forall j, q :: 0 <= j < |found| && 0 <= q < found[j].offset && AllText(data, q, found[j].offset)
                           ==> !IsLetter(data[q])
  {
    found := [];
    var offset := 0;
    while offset < |data|
      invariant Scanned(data, offset, found)
      decreases |data| - offset
    {
      if IsLetter(data[offset]) {
        var end := RunEnd(data, offset);
        if end - offset >= MinLength {
          RecordStep(data, offset, end, found);
          found := found + [Found(offset, AsciiDecode(data[offset .. end]))];
        } else {
          ShortStep(data, offset, end, found);
        }
        offset := end;
      } else {
        SkipStep(data, offset, found);
        offset := offset + 1;
      }
    }
  }

  /** The bytes of a run are all below 127, so `decode('ascii', errors='replace')` is exact. */
  lemma RecordedTextIsExact(data: Bytes, f: Found)
    requires Recorded(data, f)
    ensures forall k :: 0 <= k < |f.text| ==> f.text[k] as int == data[f.offset + k] as int
  {
    forall k | 0 <= k < |f.text| ensures f.text[k] as int == data[f.offset + k] as int {
      assert IsTextByte(data[f.offset + k]);
    }
  }
}

=== FILE: Wrappers.dfy ===
/** Optional values, used for every "may be absent" result. */
module Wrappers {

  /** The conventional Some/None datatype. */
  datatype Option<+T> = None | Some(value: T)
}
